=== FILE: README.md ===
# Ajuda do Céu — a verified model of the day verdict and month calendar

Ajuda do Céu tells its user whether a calendar date is astrologically favorable and
why. It reads a static dataset that maps each ISO date (`YYYY-MM-DD`) to that day's
facts: moon phase, void-of-course intervals of the Moon ("Lua Fora de Curso"),
Mercury retrograde, other retrogrades, transits and eclipses. On top of that dataset
it offers:

- a **day verdict** (`verificarData`): a day is favorable exactly when it has no
  void-of-course interval. There are two sentinel outcomes: no selection or no
  loaded data, and no record for the date. The record found is also shown as a
  detail panel;
- a **month grid** (`renderCalendario`): blank cells up to the weekday of day 1
  (Sunday first), then one cell per day. Each day cell carries its CSS flags
  (`dia-hoje`, `dia-lfc`, `dia-favoravel`, `dia-mercurio-retro`, `dia-eclipse`,
  `dia-invalido`), a moon glyph and a tooltip;
- **month navigation** (`handlePrevMonth` / `handleNextMonth`): it is clamped to the
  months with data, January 2025 to March 2026. The month shown first is chosen from
  the current date;
- **the moon glyph table** (`getFaseLuaEmoji`);
- **push-key decoding** (`urlBase64ToUint8Array`): base64url (section 5 of RFC 4648)
  is padded (RFC 4648 section 3.2) and translated to the standard alphabet (RFC 4648 section 4). It is
  then decoded, and each decoded character becomes one octet.

Everything is pure Dafny functions over immutable datatypes, apart from the grid.
There, the method `RenderCalendar` calls two methods with one loop each: `Blanks`
for the leading blank cells and `Days` for the day cells. The modules are:

- `Wrappers`: `Option` and `Result`.
- `Strings`: the JavaScript string built-ins used: `join`, `padStart`, `repeat`,
  `toLowerCase`, `replace`, and number to string.
- `Calendar`: the proleptic Gregorian arithmetic of `Date`.
- `AstroData`: the dataset records.
- `MoonPhase`: the glyph table.
- `DayVerdict`: the day verdict and the detail panel.
- `MonthGrid`: date keys, tooltips, cells and the grid.
- `Navigation`: month navigation and the first month shown.
- `Base64`: an RFC 4648 section 4 decoder standing in for `atob`.
- `Push`: `urlBase64ToUint8Array`.

The wall clock, the loaded dataset and `window.atob` become parameters:

- `todayKey`: today's date key;
- `now`: the current year and month;
- `todayIso`: today's ISO date;
- the store, as `Option<Store>`, `None` while it is not loaded;
- the `atob` function.

## Model

| member | source | states |
|---|---|---|
| `MoonPhase.Glyph` | src/App.tsx:31-39 | The name is lower-cased first. Exactly "nova", "crescente", "cheia" and "minguante" map to the new, first-quarter, full and last-quarter glyphs; any other string maps to "", never an error |
| `MoonPhase.GlyphIgnoresCase` | src/App.tsx:32 | Two names with the same lower-case form get the same glyph |
| `MoonPhase.GlyphOfLowered` | src/App.tsx:32 | Lower-casing a name first changes nothing |
| `MoonPhase.CapitalisedFullMoon` | src/App.tsx:32-35 | "Cheia", "CHEIA" and "cheia" all give the full-moon glyph |
| `MoonPhase.UnknownPhaseHasNoGlyph` | src/App.tsx:37 | Any name whose lower-case form is not one of the four phase names gets the empty glyph |
| `AstroData.VoidOfCourseList` | src/App.tsx:154 | The interval list is non-empty exactly when `lfc && lfc.length > 0` holds |
| `DayVerdict.VerifyDate` | src/App.tsx:139-164 | An empty input or an unloaded store gives "Selecione uma data válida ou recarregue a página.", not favorable, no details. A key missing from the store gives "Não há dados astrológicos para esta data.", not favorable, no details. Otherwise the day is favorable iff it has no void-of-course interval. The message is then "Dia FAVORÁVEL", or "Lua Fora de Curso: " followed by every interval as "start às end" joined by ", ". The details are the stored record itself |
| `DayVerdict.VerdictOnlyReadsVoidOfCourse` | src/App.tsx:154-161 | For any key, two records with the same interval list get the same verdict, whatever their retrograde, eclipse, transit or phase fields say |
| `DayVerdict.VerdictListsIntervalsInOrder` | src/App.tsx:157-158 | In an unfavorable message, interval `i` appears whole at its offset after the label, and interval `i + 1` starts two characters (", ") after it ends: all intervals, in stored order |
| `DayVerdict.OutcomesAreDistinguishable` | src/App.tsx:140-152 | The "no data" and "invalid selection" messages only ever come with an unfavorable verdict and no details, so no void-of-course message equals them; and the two messages differ from each other |
| `DayVerdict.OneIntervalExample` | src/App.tsx:154-158 | For any non-empty key whose record has the single interval 08:00 to 10:30, the verdict is exactly "Lua Fora de Curso: 08:00 às 10:30", unfavorable |
| `DayVerdict.EmptyListExample` | src/App.tsx:154-160 | For any non-empty key whose record has an interval list that is present but empty, the verdict is "Dia FAVORÁVEL", favorable |
| `DayVerdict.IntervalTexts` | src/App.tsx:157 | One "start às end" text per interval, in stored order |
| `DayVerdict.LaterItems` | src/App.tsx:399-423 | The panel lines after the phase line. The void-of-course line and the Mercury line always come first; each says "Não" exactly when its condition fails. Otherwise the void-of-course line is "Sim (…)", and the Mercury line is "Sim (" + period + ")". The other-retrogrades and transits lines appear only when their lists are non-empty, and each joins its list with ", ". The eclipse line comes last, when there is an eclipse, as "<tipo> às <horario>. <descricao>" |
| `DayVerdict.DetailsPanelAsWritten` | src/App.tsx:393-425 | As written, the panel throws exactly when the record has no phase. Otherwise it is the phase line (glyph, then the phase or "N/A") followed by `LaterItems` |
| `DayVerdict.DetailsPanel` | src/App.tsx:396-398 | The intended panel. Without a phase (absent or empty) the phase line is exactly " N/A": no glyph. With a phase, it is the phase's glyph, a space and the phase. `LaterItems` follows |
| `DayVerdict.PanelAsWrittenAgreesWhenPhasePresent` | src/App.tsx:397 | Whenever the record has a phase, the source's panel is the intended panel |
| `DayVerdict.PanelAsWrittenThrowsWithoutPhase` | src/App.tsx:397 | A record without `fase_lua` makes the source's panel throw; the intended panel shows " N/A" |
| `DayVerdict.PanelListsVerdictIntervals` | src/App.tsx:399-403 | For a day with intervals, the panel's void-of-course line is "Sim (" followed by the verdict's message after "Lua Fora de Curso: ", then ")": the same intervals in the same "start às end" form |
| `DayVerdict.PanelAgreesWithVerdict` | src/App.tsx:400-402 | The panel's void-of-course line says "Não" exactly when the verdict is favorable |
| `Calendar.DaysInMonth` | src/App.tsx:181-182 | 28 to 31 days; 29 iff February of a Gregorian leap year, 28 iff February otherwise, 30 for April, June, September and November, 31 for the rest |
| `Calendar.DateConstructorYear` | src/App.tsx:180-181 | `new Date(y, …)` reads the years 0 to 99 as 1900 to 1999 and keeps every other year |
| `Calendar.MarchYearLength` | src/App.tsx:181-182 | A March-to-February year has 366 days exactly when its February is a leap February |
| `Calendar.MonthGap` | src/App.tsx:181-182 | Day 1 of the next month comes `DaysInMonth` days after day 1 of this month, so `new Date(y, m + 1, 0)` is the last day of month `m`, across year ends too |
| `Calendar.FirstWeekdayStep` | src/App.tsx:180-185 | The weekday of the next month's first day is this month's first weekday plus its length, modulo 7 |
| `Calendar.Weekday` | src/App.tsx:185 | `getDay()`: a weekday index 0 to 6 with Sunday = 0. It is pinned to the calendar by `EpochIsDayZero`, `WeekdayOfDay` and `FirstWeekdayStep` |
| `Calendar.WeekdayOfDay` | src/App.tsx:185-192 | Day `d` falls `d - 1` weekdays after day 1 |
| `Calendar.EpochIsDayZero` | src/App.tsx:180 | The day count is zero on 1 January 1970, a Thursday (weekday 4) |
| `Calendar.January2025` | src/App.tsx:180-185 | 1 January 2025 is a Wednesday (weekday 3) and January has 31 days |
| `MonthGrid.DateKey` | src/App.tsx:193 | The key starts with the year's decimal text and a dash, and is at least six characters longer than that text. For any day below 100 it is exactly six longer, with a dash three characters from the end |
| `MonthGrid.DateKeyRoundTrip` | src/App.tsx:193 | The key built for a day (the year, then month and day padded to two digits) parses back to that year, month and day |
| `MonthGrid.DateKeyInjective` | src/App.tsx:193-194 | Two days with the same key are the same day, so no two cells read the same record |
| `MonthGrid.DateKeyIsIso` | src/App.tsx:193 | For four-digit years the key has the ten-character `YYYY-MM-DD` shape, with dashes at positions 4 and 7 |
| `MonthGrid.TooltipSegments` | src/App.tsx:205-229 | The tooltip segments are non-empty and in fixed order: the void-of-course ranges first, the eclipse last. Each segment is present only when its condition holds |
| `MonthGrid.TooltipAsBuilt` | src/App.tsx:197-229 | The tooltip of the source's guarded appends is empty exactly when the record has no intervals, no phase, no Mercury retrograde and no eclipse. With an eclipse it ends with "Eclipse <tipo>" |
| `MonthGrid.TooltipIsJoin` | src/App.tsx:197-229 | The guarded " \| " appends build exactly the segments joined by " \| ": no leading, trailing or doubled separator |
| `MonthGrid.RecordTooltip` | src/App.tsx:197-229 | A record's tooltip equals its segments joined by " \| " |
| `MonthGrid.TooltipBeginsAndEndsWithSegments` | src/App.tsx:215-228 | The tooltip starts with its first segment and ends with its last |
| `MonthGrid.UnmappedPhaseStillInTooltip` | src/App.tsx:213-217 | A phase name with an empty glyph still puts "Lua <fase>" in the tooltip |
| `MonthGrid.ClassList` | src/App.tsx:196-232 | The class list starts with `calendario-dia dia-mes`. After that it holds the class of a flag exactly when the flag is set, and every class it holds is the class of a set flag |
| `MonthGrid.RecordGlyph` | src/App.tsx:213-214 | A cell shows a glyph exactly when the record has a non-empty phase whose lower-case form is one of the four table names. With a non-empty phase, the glyph is `getFaseLuaEmoji` of that phase |
| `MonthGrid.RecordFlags` | src/App.tsx:204-229 | A record gives exactly one of `dia-lfc` / `dia-favoravel`, chosen by whether it has intervals. It gives `dia-mercurio-retro` iff `mercurio_retrogrado.status`, and `dia-eclipse` iff an eclipse is present |
| `MonthGrid.DayCell` | src/App.tsx:192-232 | `dia-hoje` is set iff the key equals today's key. A day with a record gets the record's flags, glyph and tooltip. A day without one gets `dia-invalido` and none of the others, which may coexist with `dia-hoje`; it has no glyph and an empty tooltip |
| `MonthGrid.CellAgreesWithVerdict` | src/App.tsx:239-242 | Clicking a day looks up its key: the verdict is favorable iff the cell is `dia-favoravel`, and the "no data" message comes iff the cell is `dia-invalido` |
| `MonthGrid.LeadingBlanks` | src/App.tsx:180-185 | The number of blanks is a weekday index, 0 to 6 |
| `MonthGrid.MonthLength` | src/App.tsx:181-182 | The number of day cells is 28 to 31 |
| `MonthGrid.Blanks` | src/App.tsx:185-187 | The first loop yields exactly `count` blank cells |
| `MonthGrid.Days` | src/App.tsx:192-249 | The second loop yields the cells of days 1 to `total`, day `d` at position `d - 1` |
| `MonthGrid.RenderCalendar` | src/App.tsx:176-192 | No grid while the store is not loaded. Otherwise there are `weekday(day 1)` blank cells and then `DaysInMonth` day cells, day `d` at position `weekday + d - 1` |
| `MonthGrid.DayColumnIsWeekday` | src/App.tsx:185-192 | Day `d` lands in the column (position mod 7) of its own weekday |
| `MonthGrid.January2025Grid` | src/App.tsx:180-192 | January 2025 opens with 3 blanks followed by 31 day cells |
| `Navigation.IndexInjective` | src/App.tsx:265-299 | A month index determines the year and month |
| `Navigation.Prev` | src/App.tsx:265-281 | Going back lands on the month before, or on the first month `lo` when the month before precedes it |
| `Navigation.Next` | src/App.tsx:283-299 | Going on lands on the month after, or on the last month `hi` when the month after follows it |
| `Navigation.PrevMonth` | src/App.tsx:265-281 | `handlePrevMonth` with its literal bound: the month before, but never earlier than January 2025 |
| `Navigation.NextMonth` | src/App.tsx:283-299 | `handleNextMonth` with its literal bound: the month after, but never later than March 2026 |
| `Navigation.RollOver` | src/App.tsx:269-290 | Where the clamp does not apply, January goes back to December of the year before (years after 2025), and December goes on to January of the next year (years before 2026) |
| `Navigation.ClampsToDataWindow` | src/App.tsx:273-295 | Back from any month of a year before 2025 gives January 2025; on from March 2026 or later gives March 2026 |
| `Navigation.StepsStayInWindow` | src/App.tsx:265-299 | From a month inside `[lo, hi]`, both steps stay inside it |
| `Navigation.EndsAreFixedPoints` | src/App.tsx:273-277 | Back from `lo` stays at `lo`, and on from `hi` stays at `hi` |
| `Navigation.StepsUndoEachOther` | src/App.tsx:265-299 | Inside the window, on undoes back except at `lo`, and back undoes on except at `hi` |
| `Navigation.WalkStaysInWindow` | src/App.tsx:265-299 | No sequence of arrow clicks from inside January 2025 to March 2026 ever leaves it |
| `Navigation.InitialMonth` | src/App.tsx:111-117 | The first month is January 2025 exactly when the year is before 2025, or is 2026 with a month after March; otherwise it is the current month |
| `Navigation.InitialSelectedDate` | src/App.tsx:119-124 | The first selected date is "2025-01-01" under the same test, and today's ISO date otherwise |
| `Navigation.InitialMonthKeepsLaterYears` | src/App.tsx:111 | Any month of 2027 is kept as the first month although it lies outside the data window, and a step back from January 2027 is still outside |
| `Navigation.SnapTestMissesOnlyLaterYears` | src/App.tsx:111 | For years up to 2026 the source's test is exactly "outside the data window" |
| `Navigation.InitialMonthClamped` | src/App.tsx:109-117 | The intended first month always lies in the window. It is the current month when that is inside, and January 2025 otherwise |
| `Navigation.InitialSelectedDateKeepsLaterYears` | src/App.tsx:120-124 | As written, any month of 2027 keeps today's date as the first selection, although it has no data |
| `Navigation.InitialSelectedDateClamped` | src/App.tsx:119-124 | The intended first selection is today's date inside the data window. Outside it, it is the store key of day 1 of the intended first month, which is "2025-01-01" |
| `Navigation.ClampedAgreesUpTo2026` | src/App.tsx:111-124 | For every year up to 2026, the intended first month and first selected date equal the source's |
| `Navigation.ReachableStatesInWindow` | src/App.tsx:109-117 | With the intended start, every month the arrows can reach is inside the data window |
| `Push.PaddingLength` | src/lib/push.ts:6 | `(4 - n % 4) % 4` is 0 to 3, brings `n` to a multiple of 4, and is 0 iff `n` already is one |
| `Push.RestorePadding` | src/lib/push.ts:6-7 | The padded string has a length that is a multiple of 4, begins with the input, and is "=" after it |
| `Push.ToStandardAlphabet` | src/lib/push.ts:7-9 | Every "-" becomes "+" and every "_" becomes "/", other characters and the length are kept, and no "-" or "_" remains |
| `Push.Normalize` | src/lib/push.ts:6-9 | The string handed to `atob` has a length that is a multiple of 4, longer than the input by the padding count |
| `Push.CharCodes` | src/lib/push.ts:12-16 | The output has one octet per decoded character, octet `i` being the char code of character `i` |
| `Push.UrlBase64ToBytes` | src/lib/push.ts:5-18 | Fails exactly when `atob` throws on the normalised string. Otherwise its output is as long as `atob`'s result, and octet `i` is the code of character `i` |
| `Push.NormalizeUndoesUrlEncoding` | src/lib/push.ts:6-9 | Padding and translating the unpadded URL-safe encoding of any octets gives back their standard padded encoding |
| `Push.UrlBase64RoundTrip` | src/lib/push.ts:5-18 | With an RFC 4648 section 4 decoder as `atob`, the unpadded base64url form of any key decodes to exactly that key |
| `Push.OneCharTailIsRejected` | src/lib/push.ts:6-11 | An input whose length is one more than a multiple of 4 gets "===", which the decoder rejects |
| `Base64.Decode` | src/lib/push.ts:11 | A decode succeeds only on lengths that are multiples of 4 |
| `Base64.Atob` | src/lib/push.ts:11 | A binary string (every character below 256) exactly when the decode succeeds, one character per decoded octet |
| `Base64.DecodeEncode` | src/lib/push.ts:11 | Decoding the RFC 4648 section 4 encoding of any octets gives them back |
| `Base64.DecodeRejectsEarlyPadding` | src/lib/push.ts:11 | A final quantum whose second character is "=" never decodes |

## Left out

- Dataset loading (`carregarDados`, src/App.tsx:14-28) is fetch and JSON I/O. The store is an already-loaded `map`, or `None` while loading has not succeeded.
- Authentication and account pages are thin wrappers over the third-party identity service: sign-up, sign-in, sign-out, the session gate (src/App.tsx:59-105, 301-360), src/lib/api.tsx, src/lib/supabaseClient.ts, SetPasswordPage.tsx and ForgotPasswordPage.tsx.
- `handleNotificationPermission` (src/lib/push.ts:20-53) and public/sw.js are browser permission, service-worker, push and cache I/O.
- React state mechanics are left out. Navigation is a pure function on the year-and-month pair; the source's updater reads `currentYear` from a closure.
- The clock and time zones are parameters: `todayKey`, `now` and `todayIso`. In the source today's key comes from `toISOString()` in UTC, while cell keys use local date components.
- JSX markup, styling, the legend, the month-name heading and the static information tab are presentation only.
- Only months 0 to 11 are modelled, because the source's state never leaves that range. The limits of JavaScript `Date` (years beyond about 271,000) are not modelled.
- `Strings.ToLower` folds only ASCII letters. Full Unicode lower-casing is not modelled. No non-ASCII character lower-cases to a string made only of the letters of the four phase names, so the glyph choice is unchanged.
- JavaScript measures string lengths in UTF-16 code units, the model in code points. The two agree on the ASCII text of a push key.
- Store keys inherited from `Object.prototype` (such as "constructor") are not modelled, nor are `null` record values in the JSON.
- `window.atob` stays a parameter of `Push.UrlBase64ToBytes`. The concrete `Base64.Decode` follows section 4 of RFC 4648 and, like `atob`, ignores non-zero leftover bits. It does not model `atob`'s stripping of ASCII whitespace. It also rejects unpadded input whose length is 2 or 3 modulo 4, which forgiving base64 accepts. That input never reaches the decoder, because `Push.Normalize` always pads to a multiple of 4.
- `DayVerdict.DetailsPanel`: each line is modelled as a heading and a value. The space JSX puts after each heading is not modelled.
- The model follows the code in these places:
  - the verdict's sentinel is triggered only by an empty date string, not by a malformed one;
  - the moon phase is free text, not an enumeration;
  - the window bounds are literals in the source. `Navigation.Prev`/`Navigation.Next` take them as parameters, and `PrevMonth`/`NextMonth` fix them to January 2025 and March 2026. The source's lower clamp tests `newMonth < 0`, which never holds after the roll-over. With January as the first month it coincides with the general test.

## Findings

| source | as written | input that shows it | evidently intended | confidence | as-written member | corrected member |
|---|---|---|---|---|---|---|
| src/App.tsx:111-124 | The first month is snapped to January 2025 only for years before 2025 or for 2026 after March | Any current date in 2027 or later, e.g. January 2027: that month is shown with every day invalid, and a step back from it gives December 2026, still outside the data. The first selected date has the same test at line 120 and stays today's date (`Navigation.InitialSelectedDateKeepsLaterYears`; intended: `Navigation.InitialSelectedDateClamped`) | Snap whenever the current month lies outside January 2025 to March 2026 | not executed; certain for the code as written, and it matters from January 2027 on | `Navigation.InitialMonthKeepsLaterYears` | `Navigation.InitialMonthClamped` |
| src/App.tsx:397 | The detail panel calls `getFaseLuaEmoji(fase_lua)` without a guard, and `undefined.toLowerCase()` throws | A selected day whose record omits `fase_lua` (the same line already falls back to "N/A", and the calendar guards the same call) | Show no glyph and "N/A" | not executed; depends on the dataset containing such a record | `DayVerdict.PanelAsWrittenThrowsWithoutPhase` | `DayVerdict.DetailsPanel` |

=== FILE: AstroData.dfy ===
/**
 * The records of the daily astrological dataset, one per ISO date. Every field
 * may be omitted in the JSON document, so every field is an `Option`.
 */
module AstroData {

  import opened Wrappers

  /** One void-of-course interval of the Moon (`LFCPeriod`): start and end time of day as text. */
  datatype VoidOfCourse = VoidOfCourse(start: string, end: string)

  /** Mercury's retrograde marker (`mercurio_retrogrado`): whether it is active and the label of its window. */
  datatype MercuryRetrograde = MercuryRetrograde(status: bool, period: string)

  /** An eclipse on that day (`eclipse`): its kind, time and description. */
  datatype Eclipse = Eclipse(kind: string, time: string, description: string)

  /** The facts stored for one day (`DailyData`). */
  datatype DailyData = DailyData(
    moonPhase: Option<string>,                    // fase_lua
    voidOfCourse: Option<seq<VoidOfCourse>>,      // lfc
    mercuryRetrograde: Option<MercuryRetrograde>, // mercurio_retrogrado
    otherRetrogrades: Option<seq<string>>,        // outros_retrogrados
    transits: Option<seq<string>>,                // transitos
    eclipse: Option<Eclipse>)                     // eclipse

  /** The loaded dataset: date key to record. */
  type Store = map<string, DailyData>

  /** `lfc && lfc.length > 0`: the day has at least one void-of-course interval. */
  predicate HasVoidOfCourse(d: DailyData) {
    d.voidOfCourse.Some? && |d.voidOfCourse.value| > 0
  }

  /** The intervals of the day, none when the field is omitted. */
  function VoidOfCourseList(d: DailyData): (ps: seq<VoidOfCourse>)
    ensures |ps| > 0 <==> HasVoidOfCourse(d)
  {
    d.voidOfCourse.GetOr([])
  }

  /** `mercurio_retrogrado && mercurio_retrogrado.status`. */
  predicate MercuryIsRetrograde(d: DailyData) {
    d.mercuryRetrograde.Some? && d.mercuryRetrograde.value.status
  }

  /** `if (fase_lua)`: a phase is given and is not the empty string (which JavaScript treats as false). */
  predicate HasMoonPhase(d: DailyData) {
    d.moonPhase.Some? && d.moonPhase.value != ""
  }
}

=== FILE: Base64.dfy ===
/**
 * Base 64 in the standard alphabet of section 4 of RFC 4648, with "=" padding
 * (section 3.2). It supplies one concrete decoder in the shape of `window.atob`.
 */
module Base64 {

  import opened Wrappers
  import Strings

  /** An octet, the element type of a `Uint8Array`. */
  type Byte = b: int | 0 <= b < 256

  /** A string whose characters are all below 256, the kind `window.atob` returns. */
  type BinaryString = s: string | forall i :: 0 <= i < |s| ==> s[i] as int < 256

  /** The characters of the standard alphabet: A-Z, a-z, 0-9, "+" and "/". */
  predicate IsAlphabetChar(c: char) {
    ('A' <= c <= 'Z') || ('a' <= c <= 'z') || ('0' <= c <= '9') || c == '+' || c == '/'
  }

  /** The value a character stands for (table 1 of RFC 4648). */
  function CharValue(c: char): (v: int)
    requires IsAlphabetChar(c)
    ensures 0 <= v < 64
  {
    if 'A' <= c <= 'Z' then c as int - 'A' as int
    else if 'a' <= c <= 'z' then c as int - 'a' as int + 26
    else if '0' <= c <= '9' then c as int - '0' as int + 52
    else if c == '+' then 62
    else 63
  }

  /** The character of a 6-bit value; the inverse of `CharValue`. */
  function ValueChar(v: int): (c: char)
    requires 0 <= v < 64
    ensures IsAlphabetChar(c) && CharValue(c) == v
    ensures c != '=' && c != '-' && c != '_'
  {
    if v < 26 then ('A' as int + v) as char
    else if v < 52 then ('a' as int + v - 26) as char
    else if v < 62 then ('0' as int + v - 52) as char
    else if v == 62 then '+'
    else '/'
  }

  /** Three octets as four characters. */
  function EncodeGroup(b0: Byte, b1: Byte, b2: Byte): string {
    [ValueChar(b0 / 4), ValueChar((b0 % 4) * 16 + b1 / 16), ValueChar((b1 % 16) * 4 + b2 / 64), ValueChar(b2 % 64)]
  }

  /** The encoding without its padding: full groups, then two characters for one left-over octet, three for two. */
  function EncodeUnpadded(bs: seq<Byte>): (s: string)
    ensures |s| == 4 * (|bs| / 3) + (if |bs| % 3 == 0 then 0 else |bs| % 3 + 1)
    ensures forall i :: 0 <= i < |s| ==> IsAlphabetChar(s[i])
    decreases |bs|
  {
    if |bs| == 0 then ""
    else if |bs| == 1 then [ValueChar(bs[0] / 4), ValueChar((bs[0] % 4) * 16)]
    else if |bs| == 2 then
      [ValueChar(bs[0] / 4), ValueChar((bs[0] % 4) * 16 + bs[1] / 16), ValueChar((bs[1] % 16) * 4)]
    else EncodeGroup(bs[0], bs[1], bs[2]) + EncodeUnpadded(bs[3..])
  }

  /** How many "=" close the encoding of `n` octets. */
  function PadCount(n: nat): (p: nat)
    ensures p <= 2
  {
    (3 - n % 3) % 3
  }

  /** The padded encoding of section 4 of RFC 4648. */
  function Encode(bs: seq<Byte>): (s: string)
    ensures |s| % 4 == 0 && |s| == 4 * ((|bs| + 2) / 3)
  {
    EncodeUnpadded(bs) + Strings.Repeat('=', PadCount(|bs|))
  }

  /** Four alphabet characters as three octets. */
  function DecodeGroup(c0: char, c1: char, c2: char, c3: char): (bs: seq<Byte>)
    requires IsAlphabetChar(c0) && IsAlphabetChar(c1) && IsAlphabetChar(c2) && IsAlphabetChar(c3)
    ensures |bs| == 3
  {
    var v0, v1, v2, v3 := CharValue(c0), CharValue(c1), CharValue(c2), CharValue(c3);
    [v0 * 4 + v1 / 16, (v1 % 16) * 16 + v2 / 4, (v2 % 4) * 64 + v3]
  }

  /** The last quantum: four characters, or three and "=", or two and "==". Bits left over are dropped. */
  function DecodeFinal(q: string): (r: Option<seq<Byte>>)
    requires |q| == 4
    ensures r.Some? ==> 1 <= |r.value| <= 3
    ensures !IsAlphabetChar(q[0]) || !IsAlphabetChar(q[1]) ==> r.None?
  {
    if !IsAlphabetChar(q[0]) || !IsAlphabetChar(q[1]) then None
    else if IsAlphabetChar(q[2]) && IsAlphabetChar(q[3]) then Some(DecodeGroup(q[0], q[1], q[2], q[3]))
    else if IsAlphabetChar(q[2]) && q[3] == '=' then Some(DecodeGroup(q[0], q[1], q[2], 'A')[..2])
    else if q[2] == '=' && q[3] == '=' then Some(DecodeGroup(q[0], q[1], 'A', 'A')[..1])
    else None
  }

  /** Decodes quanta of four; only the last may carry padding. */
  function DecodeQuanta(s: string): Option<seq<Byte>>
    requires |s| % 4 == 0
    decreases |s|
  {
    if |s| == 0 then Some([])
    else if |s| == 4 then DecodeFinal(s)
    else if IsAlphabetChar(s[0]) && IsAlphabetChar(s[1]) && IsAlphabetChar(s[2]) && IsAlphabetChar(s[3]) then
      match DecodeQuanta(s[4..])
      case None => None
      case Some(rest) => Some(DecodeGroup(s[0], s[1], s[2], s[3]) + rest)
    else None
  }

  /**
   * Decoding per section 4 of RFC 4648: the length must be a multiple of four, every
   * character must be in the alphabet except one or two closing "=".
   */
  function Decode(s: string): (r: Option<seq<Byte>>)
    ensures r.Some? ==> |s| % 4 == 0
  {
    if |s| % 4 != 0 then None else DecodeQuanta(s)
  }

  /** The octets as a binary string, one character per octet. */
  function BytesToBinaryString(bs: seq<Byte>): (s: BinaryString)
    ensures |s| == |bs| && forall i :: 0 <= i < |bs| ==> s[i] as int == bs[i]
  {
    seq(|bs|, i requires 0 <= i < |bs| => bs[i] as char)
  }

  /** A decoder in the shape of `window.atob`: a binary string, or `None` where `atob` throws. */
  function Atob(s: string): (r: Option<BinaryString>)
    ensures r.Some? <==> Decode(s).Some?
    ensures r.Some? ==> r.value == BytesToBinaryString(Decode(s).value)
  {
    match Decode(s)
    case None => None
    case Some(bs) => Some(BytesToBinaryString(bs))
  }

  /** A group of three octets survives encoding and decoding. */
  lemma GroupRoundTrip(b0: Byte, b1: Byte, b2: Byte)
    ensures var q := EncodeGroup(b0, b1, b2);
            DecodeGroup(q[0], q[1], q[2], q[3]) == [b0, b1, b2]
  {
  }

  /** Two left-over octets survive encoding with one "=". */
  lemma PairRoundTrip(b0: Byte, b1: Byte)
    ensures var q := [ValueChar(b0 / 4), ValueChar((b0 % 4) * 16 + b1 / 16), ValueChar((b1 % 16) * 4), '='];
            DecodeFinal(q) == Some([b0, b1])
  {
    var c0, c1, c2 := ValueChar(b0 / 4), ValueChar((b0 % 4) * 16 + b1 / 16), ValueChar((b1 % 16) * 4);
    var q := [c0, c1, c2, '='];
    assert !IsAlphabetChar(q[3]) && IsAlphabetChar(q[2]);
    assert DecodeFinal(q) == Some(DecodeGroup(c0, c1, c2, 'A')[..2]);
    assert CharValue(c0) == b0 / 4 && CharValue(c1) == (b0 % 4) * 16 + b1 / 16 && CharValue(c2) == (b1 % 16) * 4;
    assert DecodeGroup(c0, c1, c2, 'A')[..2] == [b0, b1];
  }

  /** One left-over octet survives encoding with "==". */
  lemma SingleRoundTrip(b0: Byte)
    ensures var q := [ValueChar(b0 / 4), ValueChar((b0 % 4) * 16), '=', '='];
            DecodeFinal(q) == Some([b0])
  {
    var c0, c1 := ValueChar(b0 / 4), ValueChar((b0 % 4) * 16);
    var q := [c0, c1, '=', '='];
    assert !IsAlphabetChar(q[2]) && !IsAlphabetChar(q[3]);
    assert DecodeFinal(q) == Some(DecodeGroup(c0, c1, 'A', 'A')[..1]);
    assert DecodeGroup(c0, c1, 'A', 'A')[..1] == [b0];
  }

  /** Encodings of at most two octets decode back. */
  lemma DecodeEncodeShort(bs: seq<Byte>)
    requires |bs| <= 2
    ensures Decode(Encode(bs)) == Some(bs)
  {
    var s := Encode(bs);
    if |bs| == 1 {
      SingleRoundTrip(bs[0]);
      assert Strings.Repeat('=', 2) == "==";
      assert s == [ValueChar(bs[0] / 4), ValueChar((bs[0] % 4) * 16), '=', '='];
      assert bs == [bs[0]];
    } else if |bs| == 2 {
      PairRoundTrip(bs[0], bs[1]);
      assert Strings.Repeat('=', 1) == "=";
      assert bs == [bs[0], bs[1]];
      assert s == [ValueChar(bs[0] / 4), ValueChar((bs[0] % 4) * 16 + bs[1] / 16), ValueChar((bs[1] % 16) * 4), '='];
    }
  }

  /** The encoding of three or more octets starts with the group of the first three. */
  lemma EncodeSplit(bs: seq<Byte>)
    requires |bs| >= 3
    ensures Encode(bs) == EncodeGroup(bs[0], bs[1], bs[2]) + Encode(bs[3..])
  {
    assert PadCount(|bs[3..]|) == PadCount(|bs|);
  }

  /** A full leading quantum decodes to its group, in front of whatever the rest decodes to. */
  lemma DecodeQuantaCons(g: string, rest: string)
    requires |g| == 4 && forall i :: 0 <= i < 4 ==> IsAlphabetChar(g[i])
    requires |rest| % 4 == 0
    ensures DecodeQuanta(g + rest) ==
              if rest == "" then Some(DecodeGroup(g[0], g[1], g[2], g[3]))
              else match DecodeQuanta(rest)
                   case None => None
                   case Some(r) => Some(DecodeGroup(g[0], g[1], g[2], g[3]) + r)
  {
    var s := g + rest;
    assert s[..4] == g;
    assert s[4..] == rest;
    assert s[0] == g[0] && s[1] == g[1] && s[2] == g[2] && s[3] == g[3];
    if rest == "" {
      assert s == g;
    }
  }

  /** Three or more octets decode back once the octets after the first group do. */
  lemma DecodeEncodeStep(bs: seq<Byte>)
    requires |bs| >= 3
    requires Decode(Encode(bs[3..])) == Some(bs[3..])
    ensures Decode(Encode(bs)) == Some(bs)
  {
    var g := EncodeGroup(bs[0], bs[1], bs[2]);
    var rest := Encode(bs[3..]);
    var front := DecodeGroup(g[0], g[1], g[2], g[3]);
    EncodeSplit(bs);
    GroupRoundTrip(bs[0], bs[1], bs[2]);
    DecodeQuantaCons(g, rest);
    assert Decode(Encode(bs)) == DecodeQuanta(g + rest);
    assert front == [bs[0], bs[1], bs[2]];
    assert bs == front + bs[3..];
    if |bs| == 3 {
      assert bs[3..] == [] && rest == "";
      assert front + bs[3..] == front;
    } else {
      assert |rest| > 0;
      assert DecodeQuanta(rest) == Some(bs[3..]);
    }
  }

  /** Decoding the encoding of any octets gives them back. */
  lemma {:induction false} DecodeEncode(bs: seq<Byte>)
    ensures Decode(Encode(bs)) == Some(bs)
    decreases |bs|
  {
    if |bs| <= 2 {
      DecodeEncodeShort(bs);
    } else {
      DecodeEncode(bs[3..]);
      DecodeEncodeStep(bs);
    }
  }

  /** A final quantum whose second character is "=" can never be decoded. */
  lemma {:induction false} DecodeRejectsEarlyPadding(s: string)
    requires |s| % 4 == 0 && |s| >= 4
    requires s[|s| - 3] == '='
    ensures Decode(s).None?
    decreases |s|
  {
    if |s| > 4 {
      assert s[4..][|s| - 4 - 3] == '=';
      DecodeRejectsEarlyPadding(s[4..]);
    }
  }
}

=== FILE: Calendar.dfy ===
/**
 * Proleptic Gregorian calendar arithmetic, as JavaScript's `Date` performs it.
 * Months are zero-based (January = 0) and weekdays run from Sunday = 0 to Saturday = 6.
 */
module Calendar {

  /** A zero-based month number, the range `Date.prototype.getMonth` returns. */
  type Month0 = m: int | 0 <= m < 12

  /** Gregorian leap years: every fourth year, except centuries not divisible by 400. */
  predicate IsLeapYear(y: int) {
    y % 4 == 0 && (y % 100 != 0 || y % 400 == 0)
  }

  /**
   * Length of month `m` of year `y`: the day of month of `new Date(y, m + 1, 0)`,
   * the day before the first of the following month.
   */
  function DaysInMonth(y: int, m: Month0): (n: int)
    ensures 28 <= n <= 31
    ensures n == 29 <==> m == 1 && IsLeapYear(y)
    ensures n == 28 <==> m == 1 && !IsLeapYear(y)
    ensures n == 30 <==> m in {3, 5, 8, 10}
    ensures n == 31 <==> m in {0, 2, 4, 6, 7, 9, 11}
  {
    if m == 1 then (if IsLeapYear(y) then 29 else 28)
    else if m == 3 || m == 5 || m == 8 || m == 10 then 30
    else 31
  }

  /**
   * The year `new Date(y, m, d)` actually uses: ECMAScript's MakeFullYear reads
   * the years 0 to 99 as 1900 to 1999.
   */
  function DateConstructorYear(y: int): (r: int)
    ensures 0 <= y <= 99 ==> r == 1900 + y
    ensures !(0 <= y <= 99) ==> r == y
  {
    if 0 <= y <= 99 then 1900 + y else y
  }

  /**
   * Day number of the first of March of year `y`, counted from 1 January 1970,
   * in a calendar whose years start in March (so that the leap day ends a year).
   */
  function MarchFirst(y: int): int {
    var era := y / 400;
    var yoe := y - era * 400;
    era * 146097 + yoe * 365 + yoe / 4 - yoe / 100 - 719468
  }

  /** Days from 1 March of `m` months into the March-based year, `m` in 0..11. */
  function DaysSinceMarch(mp: int): int
    requires 0 <= mp < 12
  {
    (153 * mp + 2) / 5
  }

  /**
   * Days between 1 January 1970 and day `d` of month `m` of year `y` (negative before),
   * the day count ECMAScript's MakeDay computes; days outside `1..DaysInMonth` run
   * on into the neighbouring months.
   */
  function DayNumber(y: int, m: Month0, d: int): int {
    var shifted := if m < 2 then y - 1 else y;
    var mp := (m + 10) % 12;
    MarchFirst(shifted) + DaysSinceMarch(mp) + d - 1
  }

  /** `new Date(y, m, d).getDay()` for an already full year `y`: Sunday = 0. */
  function Weekday(y: int, m: Month0, d: int): (w: int)
    ensures 0 <= w < 7
  {
    // 1 January 1970 was a Thursday.
    (DayNumber(y, m, d) + 4) % 7
  }

  /** The month after `(y, m)`. */
  function NextMonthOf(y: int, m: Month0): (int, Month0) {
    if m == 11 then (y + 1, 0) else (y, m + 1)
  }

  /** The day count is anchored at the ECMAScript epoch. */
  lemma EpochIsDayZero()
    ensures DayNumber(1970, 0, 1) == 0
    ensures Weekday(1970, 0, 1) == 4
  {
    DivMod400(1969, 4, 369);
    assert MarchFirst(1969) == 4 * 146097 + 369 * 365 + 92 - 3 - 719468;
    assert DaysSinceMarch(10) == 306;
  }

  /** Euclidean division by 400 is determined by any quotient-remainder split. */
  lemma DivMod400(y: int, q: int, r: int)
    requires y == 400 * q + r && 0 <= r < 400
    ensures y / 400 == q && y % 400 == r
  {
  }

  /** The leap rule only looks at the year's position inside its 400-year cycle. */
  lemma LeapByCycle(y: int, q: int, r: int)
    requires y == 400 * q + r && 0 <= r < 400
    ensures IsLeapYear(y) <==> IsLeapYear(r)
  {
    assert y % 4 == r % 4 by {
      assert y == 4 * (100 * q) + r;
    }
    assert y % 100 == r % 100 by {
      assert y == 100 * (4 * q) + r;
    }
    DivMod400(y, q, r);
  }

  /** Inside one cycle the count of leap days before a year grows by one exactly at a leap year. */
  lemma LeapCountStep(r: int)
    requires 0 <= r < 399
    ensures ((r + 1) / 4 - (r + 1) / 100) - (r / 4 - r / 100) == if IsLeapYear(r + 1) then 1 else 0
  {
    assert (r + 1) / 4 - r / 4 == (if (r + 1) % 4 == 0 then 1 else 0);
    assert (r + 1) / 100 - r / 100 == (if (r + 1) % 100 == 0 then 1 else 0);
    assert (r + 1) % 400 == r + 1;
  }

  /** A March-based year is one day longer exactly when the February that ends it is a leap February. */
  lemma MarchYearLength(y: int)
    ensures MarchFirst(y + 1) - MarchFirst(y) == if IsLeapYear(y + 1) then 366 else 365
  {
    var era := y / 400;
    var yoe := y - era * 400;
    if yoe == 399 {
      DivMod400(y + 1, era + 1, 0);
      LeapByCycle(y + 1, era + 1, 0);
    } else {
      DivMod400(y + 1, era, yoe + 1);
      LeapByCycle(y + 1, era, yoe + 1);
      LeapCountStep(yoe);
    }
  }

  /**
   * Day 1 of the next month comes exactly `DaysInMonth(y, m)` days after day 1 of
   * month `m`: the last day of the month is day 0 of the next one, as the source relies on.
   */
  lemma MonthGap(y: int, m: Month0)
    ensures DayNumber(NextMonthOf(y, m).0, NextMonthOf(y, m).1, 1) - DayNumber(y, m, 1) == DaysInMonth(y, m)
  {
    if m == 1 {
      MarchYearLength(y - 1);
    }
  }

  /** Adding `n` days moves a weekday `n` places round the week. */
  lemma WeekdayShift(a: int, n: int)
    ensures (a + n + 4) % 7 == ((a + 4) % 7 + n) % 7
  {
    var q := (a + 4) / 7;
    assert a + 4 == 7 * q + (a + 4) % 7;
    assert a + n + 4 == 7 * q + ((a + 4) % 7 + n);
  }

  /** The first of the next month falls `DaysInMonth` weekdays later. */
  lemma FirstWeekdayStep(y: int, m: Month0)
    ensures Weekday(NextMonthOf(y, m).0, NextMonthOf(y, m).1, 1) == (Weekday(y, m, 1) + DaysInMonth(y, m)) % 7
  {
    var (y', m') := NextMonthOf(y, m);
    var a := DayNumber(y, m, 1);
    var n := DaysInMonth(y, m);
    MonthGap(y, m);
    assert DayNumber(y', m', 1) == a + n;
    WeekdayShift(a, n);
  }

  /** Consecutive days of a month are consecutive day numbers and weekdays. */
  lemma NextDay(y: int, m: Month0, d: int)
    ensures DayNumber(y, m, d + 1) == DayNumber(y, m, d) + 1
    ensures Weekday(y, m, d + 1) == (Weekday(y, m, d) + 1) % 7
  {
  }

  /** Day `d` of a month falls `d - 1` weekdays after day 1. */
  lemma WeekdayOfDay(y: int, m: Month0, d: int)
    ensures Weekday(y, m, d) == (Weekday(y, m, 1) + (d - 1)) % 7
  {
    var a := DayNumber(y, m, 1);
    assert DayNumber(y, m, d) == a + (d - 1);
    WeekdayShift(a, d - 1);
  }

  /** January 2025 starts on a Wednesday and has 31 days. */
  lemma January2025()
    ensures Weekday(2025, 0, 1) == 3
    ensures DaysInMonth(2025, 0) == 31
  {
    DivMod400(2024, 5, 24);
    assert MarchFirst(2024) == 5 * 146097 + 24 * 365 + 6 - 0 - 719468 == 19783;
    assert DaysSinceMarch(10) == 306;
    assert DayNumber(2025, 0, 1) == 20089;
    assert 20093 == 7 * 2870 + 3;
  }
}

=== FILE: DayVerdict.dfy ===
/**
 * `verificarData`: the verdict for one date key, and the
 * detail panel rendered from the record it returns.
 */
module DayVerdict {

  import opened Wrappers
  import opened AstroData
  import Strings
  import MoonPhase

  // Written in two pieces: the verifier reads characters out of short literals only.
  const InvalidSelectionMessage: string := "Selecione uma data válida " + "ou recarregue a página."
  const NoDataMessage: string := "Não há dados astrológicos para esta data."
  const FavorableMessage: string := "Dia FAVORÁVEL"
  const VoidOfCourseLabel: string := "Lua Fora de Curso: "

  /** The verdict shown to the user (`resultadoConsulta`). */
  datatype Verdict = Verdict(message: string, isFavorable: bool)

  /** What a lookup sets: the verdict and the record behind the detail panel (`detalhesAstrologicos`). */
  datatype Lookup = Lookup(result: Verdict, details: Option<DailyData>)

  /** An interval as the verdict writes it: "start às end". */
  function IntervalText(p: VoidOfCourse): (t: string)
    ensures |t| == |p.start| + 4 + |p.end|
    ensures t[..|p.start|] == p.start && t[|t| - |p.end|..] == p.end
  {
    p.start + " às " + p.end
  }

  /** Each interval written as `IntervalText`, in stored order. */
  function IntervalTexts(ps: seq<VoidOfCourse>): (ts: seq<string>)
    ensures |ts| == |ps|
    ensures forall i :: 0 <= i < |ps| ==> ts[i] == IntervalText(ps[i])
  {
    seq(|ps|, i requires 0 <= i < |ps| => IntervalText(ps[i]))
  }

  /**
   * The verdict for `dateInput`. An empty input or an unloaded store, and a key the
   * store lacks, give the two sentinel messages and no details; otherwise the day is
   * favorable exactly when it has no void-of-course interval, and the record itself
   * is returned for the detail panel.
   */
  function VerifyDate(dateInput: string, store: Option<Store>): (r: Lookup)
    ensures dateInput == "" || store.None? ==>
              r == Lookup(Verdict(InvalidSelectionMessage, false), None)
    ensures dateInput != "" && store.Some? && dateInput !in store.value ==>
              r == Lookup(Verdict(NoDataMessage, false), None)
    ensures dateInput != "" && store.Some? && dateInput in store.value ==>
              && r.details == Some(store.value[dateInput])
              && (r.result.isFavorable <==> !HasVoidOfCourse(store.value[dateInput]))
              && (r.result.isFavorable ==> r.result.message == FavorableMessage)
              && (!r.result.isFavorable ==>
                    r.result.message == VoidOfCourseLabel
                                        + Strings.Join(IntervalTexts(VoidOfCourseList(store.value[dateInput])), ", "))
  {
    if dateInput == "" || store.None? then
      Lookup(Verdict(InvalidSelectionMessage, false), None)
    else if dateInput !in store.value then
      Lookup(Verdict(NoDataMessage, false), None)
    else
      var day := store.value[dateInput];
      var verdict :=
        if HasVoidOfCourse(day) then
          Verdict(VoidOfCourseLabel + Strings.Join(IntervalTexts(day.voidOfCourse.value), ", "), false)
        else
          Verdict(FavorableMessage, true);
      Lookup(verdict, Some(day))
  }

  /**
   * Only the void-of-course list decides the verdict: two records that agree on it
   * get the same verdict, whatever their retrogrades, eclipses, transits or phase.
   */
  lemma {:induction false} VerdictOnlyReadsVoidOfCourse(key: string, s: Store, d: DailyData, e: DailyData)
    requires d.voidOfCourse == e.voidOfCourse
    ensures VerifyDate(key, Some(s[key := d])).result == VerifyDate(key, Some(s[key := e])).result
  {
  }

  /**
   * An unfavorable message lists every interval whole, in stored order, each after
   * the label and one ", " after the one before it.
   */
  lemma {:induction false} VerdictListsIntervalsInOrder(key: string, s: Store, i: nat)
    requires key != "" && key in s
    requires i < |VoidOfCourseList(s[key])|
    ensures var m := VerifyDate(key, Some(s)).result.message;
            var ts := IntervalTexts(VoidOfCourseList(s[key]));
            var at := |VoidOfCourseLabel| + Strings.JoinOffset(ts, ", ", i);
            && at + |ts[i]| <= |m|
            && m[at .. at + |ts[i]|] == IntervalText(VoidOfCourseList(s[key])[i])
            && (i + 1 < |ts| ==> |VoidOfCourseLabel| + Strings.JoinOffset(ts, ", ", i + 1) == at + |ts[i]| + 2)
  {
    var ts := IntervalTexts(VoidOfCourseList(s[key]));
    var j := Strings.Join(ts, ", ");
    Strings.JoinPlacesElements(ts, ", ", i);
    if i + 1 < |ts| {
      Strings.JoinSeparates(ts, ", ", i);
    }
    Strings.SliceAfterPrefix(VoidOfCourseLabel, j, Strings.JoinOffset(ts, ", ", i), Strings.JoinOffset(ts, ", ", i) + |ts[i]|);
  }

  /** The three kinds of negative outcome never share a message, so "no data" is told apart from "unfavorable". */
  lemma {:induction false} OutcomesAreDistinguishable(key: string, store: Option<Store>)
    ensures InvalidSelectionMessage != NoDataMessage
    ensures var r := VerifyDate(key, store).result;
            && (r.message == NoDataMessage ==> !r.isFavorable && VerifyDate(key, store).details.None?)
            && (r.message == InvalidSelectionMessage ==> !r.isFavorable && VerifyDate(key, store).details.None?)
  {
    var r := VerifyDate(key, store).result;
    assert InvalidSelectionMessage[0] != NoDataMessage[0];
    if key != "" && store.Some? && key in store.value && HasVoidOfCourse(store.value[key]) {
      var rest := Strings.Join(IntervalTexts(VoidOfCourseList(store.value[key])), ", ");
      assert r.message == VoidOfCourseLabel + rest;
      assert r.message[0] == 'L';
      assert NoDataMessage[0] == 'N';
      assert InvalidSelectionMessage[0] == 'S';
    }
  }

  /** A day with the single interval 08:00 to 10:30 gets "Lua Fora de Curso: 08:00 às 10:30". */
  lemma OneIntervalExample(key: string, s: Store)
    requires key != "" && key in s
    requires s[key].voidOfCourse == Some([VoidOfCourse("08:00", "10:30")])
    ensures VerifyDate(key, Some(s)).result == Verdict("Lua Fora de Curso: 08:00 às 10:30", false)
  {
    var ts := IntervalTexts([VoidOfCourse("08:00", "10:30")]);
    assert ts[0] == "08:00 às 10:30";
    assert ts == ["08:00 às 10:30"];
  }

  /** A day whose interval list is present but empty is favorable. */
  lemma EmptyListExample(key: string, s: Store)
    requires key != "" && key in s
    requires s[key].voidOfCourse == Some([])
    ensures VerifyDate(key, Some(s)).result == Verdict(FavorableMessage, true)
  {
  }

  // ---------------------------------------------------------------------------
  // The detail panel shown under the verdict.
  // ---------------------------------------------------------------------------

  /** One line of the panel: its bold heading and the text after it. */
  datatype DetailItem = DetailItem(heading: string, value: string)

  /** The exception JavaScript raises when a method is called on `undefined`. */
  datatype TypeError = ReadOfUndefined(property: string)

  const PhaseLabel: string := "Fase da Lua:"
  const VoidOfCourseItemLabel: string := "Lua Fora de Curso:"
  const MercuryLabel: string := "Mercúrio Retrógrado:"
  const OtherRetrogradesLabel: string := "Outros Retrógrados:"
  const TransitsLabel: string := "Trânsitos Importantes:"
  const EclipseLabel: string := "Eclipse:"

  /** `xs && xs.length > 0` for an optional list. */
  predicate NonEmptyList(xs: Option<seq<string>>) {
    xs.Some? && |xs.value| > 0
  }

  /** The text after the phase label, given the glyph in front of it. */
  function PhaseValue(glyph: string, d: DailyData): (v: string)
    ensures |v| > |glyph| && v[..|glyph|] == glyph
    ensures !HasMoonPhase(d) ==> |v| >= 3 && v[|v| - 3..] == "N/A"
    ensures HasMoonPhase(d) ==> |v| >= |d.moonPhase.value| && v[|v| - |d.moonPhase.value|..] == d.moonPhase.value
  {
    glyph + " " + (if HasMoonPhase(d) then d.moonPhase.value else "N/A")
  }

  /** The panel lines after the phase line, in display order; the optional ones only when their data is there. */
  function LaterItems(d: DailyData): (items: seq<DetailItem>)
    ensures |items| >= 2
    ensures items[0].heading == VoidOfCourseItemLabel && items[1].heading == MercuryLabel
    ensures items[0].value == "Não" <==> !HasVoidOfCourse(d)
    ensures items[1].value == "Não" <==> !MercuryIsRetrograde(d)
    ensures |items| == 2 + (if NonEmptyList(d.otherRetrogrades) then 1 else 0)
                         + (if NonEmptyList(d.transits) then 1 else 0)
                         + (if d.eclipse.Some? then 1 else 0)
    ensures HasVoidOfCourse(d) ==> |items[0].value| >= 6 && items[0].value[..5] == "Sim (" && items[0].value[|items[0].value| - 1] == ')'
    ensures MercuryIsRetrograde(d) ==> items[1].value == "Sim (" + d.mercuryRetrograde.value.period + ")"
    ensures NonEmptyList(d.otherRetrogrades) ==>
              items[2] == DetailItem(OtherRetrogradesLabel, Strings.Join(d.otherRetrogrades.value, ", "))
    ensures NonEmptyList(d.transits) ==>
              items[if NonEmptyList(d.otherRetrogrades) then 3 else 2] == DetailItem(TransitsLabel, Strings.Join(d.transits.value, ", "))
    ensures d.eclipse.Some? ==> items[|items| - 1].heading == EclipseLabel
    ensures d.eclipse.Some? ==>
              items[|items| - 1].value == d.eclipse.value.kind + " às " + d.eclipse.value.time + ". " + d.eclipse.value.description
  {
    var voc :=
      if HasVoidOfCourse(d) then "Sim (" + Strings.Join(IntervalTexts(d.voidOfCourse.value), ", ") + ")"
      else "Não";
    var mercury :=
      if MercuryIsRetrograde(d) then "Sim (" + d.mercuryRetrograde.value.period + ")" else "Não";
    [DetailItem(VoidOfCourseItemLabel, voc), DetailItem(MercuryLabel, mercury)]
    + (if NonEmptyList(d.otherRetrogrades)
       then [DetailItem(OtherRetrogradesLabel, Strings.Join(d.otherRetrogrades.value, ", "))] else [])
    + (if NonEmptyList(d.transits)
       then [DetailItem(TransitsLabel, Strings.Join(d.transits.value, ", "))] else [])
    + (if d.eclipse.Some?
       then [DetailItem(EclipseLabel,
                        d.eclipse.value.kind + " às " + d.eclipse.value.time + ". " + d.eclipse.value.description)]
       else [])
  }

  /**
   * The panel as the source renders it: the phase line calls the glyph table on
   * `fase_lua` unguarded, and lower-casing an omitted phase throws.
   */
  function DetailsPanelAsWritten(d: DailyData): (r: Result<seq<DetailItem>, TypeError>)
    ensures r.Failure? <==> d.moonPhase.None?
    ensures r.Success? ==> |r.value| >= 3 && r.value[0] == DetailItem(PhaseLabel, PhaseValue(MoonPhase.Glyph(d.moonPhase.value), d))
                           && r.value[1..] == LaterItems(d)
  {
    match d.moonPhase
    case None => Failure(ReadOfUndefined("toLowerCase"))
    case Some(phase) => Success([DetailItem(PhaseLabel, PhaseValue(MoonPhase.Glyph(phase), d))] + LaterItems(d))
  }

  /**
   * The panel as evidently intended: an omitted phase shows no glyph and "N/A",
   * the same fallback the text after the glyph already has.
   */
  function DetailsPanel(d: DailyData): (items: seq<DetailItem>)
    ensures |items| >= 3
    ensures items[0].heading == PhaseLabel
    ensures !HasMoonPhase(d) ==> items[0].value == " N/A"
    ensures HasMoonPhase(d) ==> items[0].value == PhaseValue(MoonPhase.Glyph(d.moonPhase.value), d)
    ensures !HasMoonPhase(d) ==> items[0].value[|items[0].value| - 3..] == "N/A"
    ensures HasMoonPhase(d) ==> items[0].value[|items[0].value| - |d.moonPhase.value|..] == d.moonPhase.value
    ensures items[1..] == LaterItems(d)
  {
    var glyph := if HasMoonPhase(d) then MoonPhase.Glyph(d.moonPhase.value) else "";
    [DetailItem(PhaseLabel, PhaseValue(glyph, d))] + LaterItems(d)
  }

  /** Whenever the source's panel renders at all, it renders the intended panel. */
  lemma {:induction false} PanelAsWrittenAgreesWhenPhasePresent(d: DailyData)
    requires d.moonPhase.Some?
    ensures DetailsPanelAsWritten(d) == Success(DetailsPanel(d))
  {
    if d.moonPhase.value == "" {
      assert MoonPhase.Glyph("") == "" by {
        assert Strings.ToLower("") == "";
      }
    }
  }

  /** A record with no phase makes the source's panel throw (a day whose JSON omits `fase_lua`). */
  lemma PanelAsWrittenThrowsWithoutPhase(d: DailyData)
    requires d.moonPhase.None?
    ensures DetailsPanelAsWritten(d).Failure?
    ensures DetailsPanel(d)[0].value == " N/A"
  {
  }

  /** The panel's void-of-course line lists, in brackets after "Sim", the same intervals the verdict's message lists. */
  lemma {:induction false} PanelListsVerdictIntervals(key: string, s: Store)
    requires key != "" && key in s && HasVoidOfCourse(s[key])
    ensures var m := VerifyDate(key, Some(s)).result.message;
            |m| >= |VoidOfCourseLabel| && DetailsPanel(s[key])[1].value == "Sim (" + m[|VoidOfCourseLabel|..] + ")"
  {
  }

  /** The panel's void-of-course line says "Não" exactly when the verdict is favorable. */
  lemma {:induction false} PanelAgreesWithVerdict(key: string, s: Store)
    requires key != "" && key in s
    ensures var r := VerifyDate(key, Some(s));
            r.details.Some? && (DetailsPanel(r.details.value)[1].value == "Não" <==> r.result.isFavorable)
  {
    var items := DetailsPanel(s[key]);
    assert items[1] == LaterItems(s[key])[0];
  }
}

=== FILE: MonthGrid.dfy ===
/**
 * `renderCalendario`: one month as a grid of cells, blank
 * cells first so that day 1 lands in its weekday column (Sunday first), then one
 * classified cell per day.
 */
module MonthGrid {

  import opened Wrappers
  import opened AstroData
  import Strings
  import Calendar
  import MoonPhase
  import DayVerdict

  // ---------------------------------------------------------------------------
  // Date keys
  // ---------------------------------------------------------------------------

  /** The store key of a day: the year as written, then month and day padded to two digits. */
  function DateKey(year: int, month: Calendar.Month0, day: nat): (k: string)
    ensures |k| >= |Strings.IntToString(year)| + 6
    ensures k[..|Strings.IntToString(year)|] == Strings.IntToString(year)
    ensures k[|Strings.IntToString(year)|] == '-'
    ensures day < 100 ==> |k| == |Strings.IntToString(year)| + 6 && k[|k| - 3] == '-'
  {
    Strings.IntToString(year) + "-" + Strings.PadStart2(Strings.NatToString(month + 1))
    + "-" + Strings.PadStart2(Strings.NatToString(day))
  }

  /** A two-character field of digits read as a number. */
  function ParseTwoDigits(s: string): Option<nat> {
    if |s| == 2 && Strings.IsDigits(s) then Some(Strings.ParseNat(s)) else None
  }

  /** Reads a key back as year, zero-based month and day; `None` when it is not of that shape. */
  function ParseDateKey(k: string): Option<(int, Calendar.Month0, nat)> {
    if |k| < 7 || k[|k| - 6] != '-' || k[|k| - 3] != '-' then None
    else
      match (Strings.ParseInt(k[..|k| - 6]), ParseTwoDigits(k[|k| - 5..|k| - 3]), ParseTwoDigits(k[|k| - 2..]))
      case (Some(y), Some(m), Some(d)) => if 1 <= m <= 12 then Some((y, m - 1, d)) else None
      case _ => None
  }

  /** A number below 100 padded to two digits reads back as itself. */
  lemma {:induction false} TwoDigitsRoundTrip(n: nat)
    requires n < 100
    ensures |Strings.PadStart2(Strings.NatToString(n))| == 2
    ensures ParseTwoDigits(Strings.PadStart2(Strings.NatToString(n))) == Some(n)
  {
    var s := Strings.NatToString(n);
    var p := Strings.PadStart2(s);
    Strings.ParseNatToString(n);
    if n < 10 {
      assert p == "0" + s;
      assert p[..1] == "0";
      assert Strings.ParseNat("0") == 0 by {
        assert "0"[..0] == "";
      }
      assert Strings.ParseNat(p) == 10 * Strings.ParseNat(p[..1]) + Strings.DigitValue(p[1]);
      assert Strings.ParseNat(s) == Strings.DigitValue(s[0]) by {
        assert s[..0] == "";
      }
    } else {
      assert n / 10 < 10;
      assert p == s;
    }
  }

  /** The three fields of a key are found again at the places `ParseDateKey` reads them. */
  lemma KeyFields(ys: string, ms: string, ds: string)
    requires |ys| >= 1 && |ms| == 2 && |ds| == 2
    ensures var k := ys + "-" + ms + "-" + ds;
            && |k| == |ys| + 6 && k[|k| - 6] == '-' && k[|k| - 3] == '-'
            && k[..|k| - 6] == ys && k[|k| - 5..|k| - 3] == ms && k[|k| - 2..] == ds
  {
    var k := ys + "-" + ms + "-" + ds;
    assert k == ys + ("-" + ms + "-" + ds);
    SliceAfterFront(ys, "-" + ms + "-" + ds);
  }

  /** Helper: the front of a concatenation is its first part. */
  lemma SliceAfterFront(a: string, b: string)
    ensures (a + b)[..|a|] == a && (a + b)[|a|..] == b
  {
  }

  /** A key put together from readable fields reads back as those fields. */
  lemma ParseKeyOfFields(ys: string, ms: string, ds: string, y: int, m: nat, d: nat)
    requires |ys| >= 1 && |ms| == 2 && |ds| == 2 && 1 <= m <= 12
    requires Strings.ParseInt(ys) == Some(y)
    requires ParseTwoDigits(ms) == Some(m) && ParseTwoDigits(ds) == Some(d)
    ensures ParseDateKey(ys + "-" + ms + "-" + ds) == Some((y, m - 1, d))
  {
    KeyFields(ys, ms, ds);
  }

  /** A key reads back as the day it was built from, so distinct days never share a key. */
  lemma {:induction false} DateKeyRoundTrip(year: int, month: Calendar.Month0, day: nat)
    requires day < 100
    ensures ParseDateKey(DateKey(year, month, day)) == Some((year, month, day))
  {
    var ys := Strings.IntToString(year);
    var ms := Strings.PadStart2(Strings.NatToString(month + 1));
    var ds := Strings.PadStart2(Strings.NatToString(day));
    TwoDigitsRoundTrip(month + 1);
    TwoDigitsRoundTrip(day);
    Strings.ParseIntToString(year);
    ParseKeyOfFields(ys, ms, ds, year, month + 1, day);
  }

  /** Two days with the same key are the same day. */
  lemma DateKeyInjective(y1: int, m1: Calendar.Month0, d1: nat, y2: int, m2: Calendar.Month0, d2: nat)
    requires d1 < 100 && d2 < 100
    requires DateKey(y1, m1, d1) == DateKey(y2, m2, d2)
    ensures y1 == y2 && m1 == m2 && d1 == d2
  {
    DateKeyRoundTrip(y1, m1, d1);
    DateKeyRoundTrip(y2, m2, d2);
  }

  /** For four-digit years the key has the ISO `YYYY-MM-DD` shape of the dataset's keys. */
  lemma {:induction false} DateKeyIsIso(year: int, month: Calendar.Month0, day: nat)
    requires 1000 <= year <= 9999 && day < 100
    ensures |DateKey(year, month, day)| == 10
    ensures DateKey(year, month, day)[4] == '-' && DateKey(year, month, day)[7] == '-'
  {
    var ys := Strings.NatToString(year);
    assert |Strings.NatToString(year / 10)| == 3 by {
      assert |Strings.NatToString(year / 100)| == 2 by {
        assert |Strings.NatToString(year / 1000)| == 1;
      }
    }
    TwoDigitsRoundTrip(month + 1);
    TwoDigitsRoundTrip(day);
  }

  // ---------------------------------------------------------------------------
  // Tooltip
  // ---------------------------------------------------------------------------

  const TooltipSeparator: string := " | "
  const MercurySegment: string := "Mercúrio Retrógrado"

  /** An interval as the tooltip writes it: "start-end". */
  function RangeText(p: VoidOfCourse): string {
    p.start + "-" + p.end
  }

  /** The tooltip's void-of-course segment: the label, then every range, joined by ", ". */
  function VoidOfCourseSegment(ps: seq<VoidOfCourse>): (t: string)
    ensures |t| >= |DayVerdict.VoidOfCourseLabel| && t[..|DayVerdict.VoidOfCourseLabel|] == DayVerdict.VoidOfCourseLabel
  {
    DayVerdict.VoidOfCourseLabel
    + Strings.Join(seq(|ps|, i requires 0 <= i < |ps| => RangeText(ps[i])), ", ")
  }

  /** `if (titleText) titleText += " | "; titleText += seg`. */
  function AppendSegment(acc: string, seg: string): string {
    (if acc != "" then acc + TooltipSeparator else acc) + seg
  }

  /** The tooltip as the source builds it, one guarded append after another. */
  function TooltipAsBuilt(d: DailyData): (t: string)
    ensures t == "" <==> !HasVoidOfCourse(d) && !HasMoonPhase(d) && !MercuryIsRetrograde(d) && d.eclipse.None?
    ensures d.eclipse.Some? ==> |t| >= |"Eclipse " + d.eclipse.value.kind|
                                && t[|t| - |"Eclipse " + d.eclipse.value.kind|..] == "Eclipse " + d.eclipse.value.kind
  {
    var t0 := if HasVoidOfCourse(d) then VoidOfCourseSegment(d.voidOfCourse.value) else "";
    var t1 := if HasMoonPhase(d) then AppendSegment(t0, "Lua " + d.moonPhase.value) else t0;
    var t2 := if MercuryIsRetrograde(d) then AppendSegment(t1, MercurySegment) else t1;
    if d.eclipse.Some? then AppendSegment(t2, "Eclipse " + d.eclipse.value.kind) else t2
  }

  /**
   * The segments a record's tooltip is made of, in their fixed order: void-of-course
   * ranges, moon phase, Mercury retrograde, eclipse kind; each only when its data is there.
   */
  function TooltipSegments(d: DailyData): (segs: seq<string>)
    ensures forall i :: 0 <= i < |segs| ==> segs[i] != ""
    ensures |segs| == (if HasVoidOfCourse(d) then 1 else 0) + (if HasMoonPhase(d) then 1 else 0)
                      + (if MercuryIsRetrograde(d) then 1 else 0) + (if d.eclipse.Some? then 1 else 0)
    ensures HasVoidOfCourse(d) ==> segs[0] == VoidOfCourseSegment(d.voidOfCourse.value)
    ensures d.eclipse.Some? ==> segs[|segs| - 1] == "Eclipse " + d.eclipse.value.kind
  {
    (if HasVoidOfCourse(d) then [VoidOfCourseSegment(d.voidOfCourse.value)] else [])
    + (if HasMoonPhase(d) then ["Lua " + d.moonPhase.value] else [])
    + (if MercuryIsRetrograde(d) then [MercurySegment] else [])
    + (if d.eclipse.Some? then ["Eclipse " + d.eclipse.value.kind] else [])
  }

  /** Appending to the join of non-empty segments joins one segment more. */
  lemma AppendSegmentJoins(segs: seq<string>, seg: string)
    requires forall i :: 0 <= i < |segs| ==> segs[i] != ""
    ensures AppendSegment(Strings.Join(segs, TooltipSeparator), seg) == Strings.Join(segs + [seg], TooltipSeparator)
  {
    Strings.JoinEmptyIff(segs, TooltipSeparator);
    if segs == [] {
      assert segs + [seg] == [seg];
    } else {
      Strings.JoinSnoc(segs, seg, TooltipSeparator);
    }
  }

  /** One guarded append keeps "the text so far is the join of the segments so far". */
  lemma GuardedAppendJoins(acc: string, segs: seq<string>, present: bool, seg: string)
    requires forall i :: 0 <= i < |segs| ==> segs[i] != ""
    requires seg != ""
    requires acc == Strings.Join(segs, TooltipSeparator)
    ensures var segs' := segs + (if present then [seg] else []);
            && (forall i :: 0 <= i < |segs'| ==> segs'[i] != "")
            && (if present then AppendSegment(acc, seg) else acc) == Strings.Join(segs', TooltipSeparator)
  {
    if present {
      AppendSegmentJoins(segs, seg);
    } else {
      assert segs + [] == segs;
    }
  }

  /**
   * The guarded appends produce exactly the segments joined by " | ": no separator
   * before the first, after the last, or twice in a row.
   */
  lemma {:induction false} TooltipIsJoin(d: DailyData)
    ensures TooltipAsBuilt(d) == Strings.Join(TooltipSegments(d), TooltipSeparator)
  {
    var voc := if HasVoidOfCourse(d) then VoidOfCourseSegment(d.voidOfCourse.value) else "";
    var moon := "Lua " + d.moonPhase.GetOr("");
    var eclipse := "Eclipse " + (if d.eclipse.Some? then d.eclipse.value.kind else "");
    var s0: seq<string> := if HasVoidOfCourse(d) then [voc] else [];
    var s1 := s0 + (if HasMoonPhase(d) then [moon] else []);
    var s2 := s1 + (if MercuryIsRetrograde(d) then [MercurySegment] else []);
    var s3 := s2 + (if d.eclipse.Some? then [eclipse] else []);
    assert s3 == TooltipSegments(d);
    var t1 := if HasMoonPhase(d) then AppendSegment(voc, moon) else voc;
    var t2 := if MercuryIsRetrograde(d) then AppendSegment(t1, MercurySegment) else t1;
    var t3 := if d.eclipse.Some? then AppendSegment(t2, eclipse) else t2;
    assert TooltipAsBuilt(d) == t3;
    GuardedAppendJoins(voc, s0, HasMoonPhase(d), moon);
    GuardedAppendJoins(t1, s1, MercuryIsRetrograde(d), MercurySegment);
    GuardedAppendJoins(t2, s2, d.eclipse.Some?, eclipse);
  }

  /** The tooltip begins with its first segment and ends with its last one. */
  lemma {:induction false} TooltipBeginsAndEndsWithSegments(d: DailyData)
    requires TooltipSegments(d) != []
    ensures var t := TooltipAsBuilt(d);
            var segs := TooltipSegments(d);
            && |segs[0]| <= |t| && t[..|segs[0]|] == segs[0]
            && |segs[|segs| - 1]| <= |t| && t[|t| - |segs[|segs| - 1]|..] == segs[|segs| - 1]
  {
    var segs := TooltipSegments(d);
    TooltipIsJoin(d);
    Strings.JoinPlacesElements(segs, TooltipSeparator, 0);
    Strings.JoinPlacesElements(segs, TooltipSeparator, |segs| - 1);
  }

  /** A phase name with no glyph is still named in the tooltip. */
  lemma {:induction false} UnmappedPhaseStillInTooltip(d: DailyData)
    requires HasMoonPhase(d) && MoonPhase.Glyph(d.moonPhase.value) == ""
    ensures "Lua " + d.moonPhase.value in TooltipSegments(d)
  {
    var segs := TooltipSegments(d);
    var k := if HasVoidOfCourse(d) then 1 else 0;
    assert segs[k] == "Lua " + d.moonPhase.value;
  }

  // ---------------------------------------------------------------------------
  // Cells
  // ---------------------------------------------------------------------------

  /** The classes a day cell may carry besides `calendario-dia dia-mes`. */
  datatype Flag = IsToday | IsVoidOfCourse | IsFavorable | HasMercuryRetrograde | HasEclipse | IsInvalid

  /** The CSS class that shows a flag. */
  function FlagClass(f: Flag): string {
    match f
    case IsToday => "dia-hoje"
    case IsVoidOfCourse => "dia-lfc"
    case IsFavorable => "dia-favoravel"
    case HasMercuryRetrograde => "dia-mercurio-retro"
    case HasEclipse => "dia-eclipse"
    case IsInvalid => "dia-invalido"
  }

  /** Different flags show as different classes, none of them a base class. */
  lemma FlagClassInjective()
    ensures forall f, g :: FlagClass(f) == FlagClass(g) ==> f == g
    ensures forall f :: FlagClass(f) != "calendario-dia" && FlagClass(f) != "dia-mes"
  {
    forall f, g | FlagClass(f) == FlagClass(g) ensures f == g {
      assert FlagClass(f)[4..6] == FlagClass(g)[4..6];
    }
  }

  /** A grid cell: a blank before day 1, or a day with its key, flags, moon glyph and tooltip. */
  datatype Cell =
    | Blank
    | Day(day: nat, key: string, flags: set<Flag>, glyph: string, tooltip: string)

  /** The order in which the source appends the flag classes. */
  const FlagOrder: seq<Flag> := [IsToday, IsVoidOfCourse, IsFavorable, HasMercuryRetrograde, HasEclipse, IsInvalid]

  /** The classes of the flags in `order` that are set, in that order. */
  function ClassesInOrder(order: seq<Flag>, flags: set<Flag>): seq<string>
    decreases |order|
  {
    if order == [] then []
    else (if order[0] in flags then [FlagClass(order[0])] else []) + ClassesInOrder(order[1..], flags)
  }

  /** A flag's class is listed exactly when the flag is set and comes in the order. */
  lemma {:induction false} ClassesInOrderLists(order: seq<Flag>, flags: set<Flag>, f: Flag)
    ensures FlagClass(f) in ClassesInOrder(order, flags) <==> f in order && f in flags
    ensures "calendario-dia" !in ClassesInOrder(order, flags) && "dia-mes" !in ClassesInOrder(order, flags)
    decreases |order|
  {
    FlagClassInjective();
    if order != [] {
      ClassesInOrderLists(order[1..], flags, f);
      assert f in order <==> f == order[0] || f in order[1..];
    }
  }

  /** Every listed class is the class of a set flag: nothing else is appended. */
  lemma {:induction false} ClassesInOrderOnlySetFlags(order: seq<Flag>, flags: set<Flag>)
    ensures forall c :: c in ClassesInOrder(order, flags) ==> exists f :: f in flags && c == FlagClass(f)
    decreases |order|
  {
    if order != [] {
      ClassesInOrderOnlySetFlags(order[1..], flags);
    }
  }

  /** Every flag has its place in the order. */
  lemma FlagOrderIsComplete(f: Flag)
    ensures f in FlagOrder
  {
    match f
    case IsToday => assert FlagOrder[0] == f;
    case IsVoidOfCourse => assert FlagOrder[1] == f;
    case IsFavorable => assert FlagOrder[2] == f;
    case HasMercuryRetrograde => assert FlagOrder[3] == f;
    case HasEclipse => assert FlagOrder[4] == f;
    case IsInvalid => assert FlagOrder[5] == f;
  }

  /** Every set flag, and no other, has its class among the flag classes. */
  lemma FlagClassesMatchFlags(flags: set<Flag>)
    ensures forall f :: f in flags <==> FlagClass(f) in ClassesInOrder(FlagOrder, flags)
  {
    forall f ensures f in flags <==> FlagClass(f) in ClassesInOrder(FlagOrder, flags) {
      FlagOrderIsComplete(f);
      ClassesInOrderLists(FlagOrder, flags, f);
    }
  }

  /** The class list of a cell: the two base classes, then one class per set flag. */
  function ClassList(flags: set<Flag>): (cs: seq<string>)
    ensures |cs| >= 2 && cs[..2] == ["calendario-dia", "dia-mes"]
    ensures forall f :: f in flags <==> FlagClass(f) in cs[2..]
    ensures forall c :: c in cs[2..] ==> exists f :: f in flags && c == FlagClass(f)
  {
    FlagClassesMatchFlags(flags);
    ClassesInOrderOnlySetFlags(FlagOrder, flags);
    var cs := ["calendario-dia", "dia-mes"] + ClassesInOrder(FlagOrder, flags);
    assert cs[2..] == ClassesInOrder(FlagOrder, flags);
    cs
  }

  /**
   * The flags a record gives its day, besides "today": void-of-course or favorable,
   * never both, plus Mercury retrograde and eclipse exactly when the record says so.
   */
  function RecordFlags(d: DailyData): (fs: set<Flag>)
    ensures IsVoidOfCourse in fs <==> HasVoidOfCourse(d)
    ensures IsFavorable in fs <==> !HasVoidOfCourse(d)
    ensures HasMercuryRetrograde in fs <==> MercuryIsRetrograde(d)
    ensures HasEclipse in fs <==> d.eclipse.Some?
    ensures IsToday !in fs && IsInvalid !in fs
  {
    (if HasVoidOfCourse(d) then {IsVoidOfCourse} else {IsFavorable})
    + (if MercuryIsRetrograde(d) then {HasMercuryRetrograde} else {})
    + (if d.eclipse.Some? then {HasEclipse} else {})
  }

  /** What a record shows in its cell: the glyph of a non-empty phase, else nothing. */
  function RecordGlyph(d: DailyData): (g: string)
    ensures g != "" <==> HasMoonPhase(d) && Strings.ToLower(d.moonPhase.value) in {"nova", "crescente", "cheia", "minguante"}
    ensures HasMoonPhase(d) ==> g == MoonPhase.Glyph(d.moonPhase.value)
  {
    if HasMoonPhase(d) then MoonPhase.Glyph(d.moonPhase.value) else ""
  }

  /** The tooltip of a record, proved equal to its segments joined by " | ". */
  function RecordTooltip(d: DailyData): (t: string)
    ensures t == Strings.Join(TooltipSegments(d), TooltipSeparator)
  {
    TooltipIsJoin(d);
    TooltipAsBuilt(d)
  }

  /**
   * The cell of day `day`. "Today" depends only on the key. A day with a record gets
   * that record's flags, glyph and tooltip; a day without one is only marked invalid,
   * with no glyph and no tooltip.
   */
  function DayCell(year: int, month: Calendar.Month0, day: nat, store: Store, todayKey: string): (c: Cell)
    ensures c.Day? && c.day == day && c.key == DateKey(year, month, day)
    ensures IsToday in c.flags <==> c.key == todayKey
    ensures c.key in store ==>
              && c.flags - {IsToday} == RecordFlags(store[c.key])
              && c.glyph == RecordGlyph(store[c.key])
              && c.tooltip == RecordTooltip(store[c.key])
    ensures c.key !in store ==>
              c.flags - {IsToday} == {IsInvalid} && c.glyph == "" && c.tooltip == ""
  {
    var key := DateKey(year, month, day);
    var today: set<Flag> := if key == todayKey then {IsToday} else {};
    if key in store then
      var d := store[key];
      Day(day, key, today + RecordFlags(d), RecordGlyph(d), RecordTooltip(d))
    else
      Day(day, key, today + {IsInvalid}, "", "")
  }

  /**
   * Clicking a day looks its key up: the verdict is favorable exactly when the cell is
   * marked favorable, and a cell marked invalid leads to the "no data" message.
   */
  lemma {:induction false} CellAgreesWithVerdict(year: int, month: Calendar.Month0, day: nat, s: Store, todayKey: string)
    ensures var c := DayCell(year, month, day, s, todayKey);
            var v := DayVerdict.VerifyDate(c.key, Some(s)).result;
            && (IsFavorable in c.flags <==> v.isFavorable)
            && (IsInvalid in c.flags <==> v.message == DayVerdict.NoDataMessage)
  {
    var c := DayCell(year, month, day, s, todayKey);
    assert c.key != "" by {
      assert |Strings.IntToString(year)| >= 1;
    }
    DayVerdict.OutcomesAreDistinguishable(c.key, Some(s));
    if c.key in s {
      var v := DayVerdict.VerifyDate(c.key, Some(s)).result;
      if v.isFavorable {
        assert v.message == DayVerdict.FavorableMessage;
        assert DayVerdict.FavorableMessage[0] != DayVerdict.NoDataMessage[0];
      }
    }
  }

  // ---------------------------------------------------------------------------
  // The grid
  // ---------------------------------------------------------------------------

  /** How many blanks precede day 1: `new Date(year, month, 1).getDay()`. */
  function LeadingBlanks(year: int, month: Calendar.Month0): (w: nat)
    ensures w < 7
  {
    Calendar.Weekday(Calendar.DateConstructorYear(year), month, 1)
  }

  /** How many days the month has: `new Date(year, month + 1, 0).getDate()`. */
  function MonthLength(year: int, month: Calendar.Month0): (n: nat)
    ensures 28 <= n <= 31
  {
    Calendar.DaysInMonth(Calendar.DateConstructorYear(year), month)
  }

  /** The blank cells before day 1 (the source's first loop). */
  method Blanks(count: nat) returns (cells: seq<Cell>)
    ensures |cells| == count
    ensures forall i :: 0 <= i < count ==> cells[i] == Blank
  {
    cells := [];
    var i := 0;
    while i < count
      invariant 0 <= i <= count
      invariant |cells| == i
      invariant forall j :: 0 <= j < i ==> cells[j] == Blank
    {
      cells := cells + [Blank];
      i := i + 1;
    }
  }

  /** The cells of days 1 to `total`, in order (the source's second loop). */
  method Days(year: int, month: Calendar.Month0, total: nat, s: Store, todayKey: string) returns (cells: seq<Cell>)
    ensures |cells| == total
    ensures forall j :: 0 <= j < total ==> cells[j] == DayCell(year, month, j + 1, s, todayKey)
  {
    cells := [];
    var day: nat := 1;
    while day <= total
      invariant 1 <= day <= total + 1
      invariant |cells| == day - 1
      invariant forall j :: 0 <= j < |cells| ==> cells[j] == DayCell(year, month, j + 1, s, todayKey)
    {
      cells := cells + [DayCell(year, month, day, s, todayKey)];
      day := day + 1;
    }
  }

  /**
   * The grid of a month, built like the source's two loops; `None` while the store is
   * not loaded. It holds `LeadingBlanks` blanks, then the cell of every day in order,
   * day `d` at position `LeadingBlanks + d - 1`.
   */
  method RenderCalendar(year: int, month: Calendar.Month0, store: Option<Store>, todayKey: string)
    returns (grid: Option<seq<Cell>>)
    ensures grid.None? <==> store.None?
    ensures grid.Some? ==>
              && |grid.value| == LeadingBlanks(year, month) + MonthLength(year, month)
              && (forall i :: 0 <= i < LeadingBlanks(year, month) ==> grid.value[i] == Blank)
              && (forall d: nat :: 1 <= d <= MonthLength(year, month) ==>
                    grid.value[LeadingBlanks(year, month) + d - 1] == DayCell(year, month, d, store.value, todayKey))
  {
    if store.None? {
      return None;
    }
    var blanks := LeadingBlanks(year, month);
    var total := MonthLength(year, month);
    var front := Blanks(blanks);
    var days := Days(year, month, total, store.value, todayKey);
    return Some(front + days);
  }

  /** Day `d` sits in the column of its own weekday, since each row holds seven cells. */
  lemma {:induction false} DayColumnIsWeekday(year: int, month: Calendar.Month0, d: nat)
    requires 1 <= d <= MonthLength(year, month)
    ensures (LeadingBlanks(year, month) + d - 1) % 7 == Calendar.Weekday(Calendar.DateConstructorYear(year), month, d)
  {
    Calendar.WeekdayOfDay(Calendar.DateConstructorYear(year), month, d);
  }

  /** January 2025 opens with three blanks (it starts on a Wednesday) and has 31 day cells. */
  lemma January2025Grid()
    ensures LeadingBlanks(2025, 0) == 3 && MonthLength(2025, 0) == 31
  {
    Calendar.January2025();
  }
}

=== FILE: MoonPhase.dfy ===
/** The glyph shown for a lunar phase name (`getFaseLuaEmoji`). */
module MoonPhase {

  import Strings

  const NewMoonGlyph: string := "\U{1F311}"
  const FirstQuarterGlyph: string := "\U{1F313}"
  const FullMoonGlyph: string := "\U{1F315}"
  const LastQuarterGlyph: string := "\U{1F317}"

  /**
   * The glyph for a phase name, matched after lower-casing: "nova", "crescente",
   * "cheia" and "minguante" have a glyph, every other string gets the empty string.
   */
  function Glyph(phase: string): (g: string)
    ensures g == NewMoonGlyph <==> Strings.ToLower(phase) == "nova"
    ensures g == FirstQuarterGlyph <==> Strings.ToLower(phase) == "crescente"
    ensures g == FullMoonGlyph <==> Strings.ToLower(phase) == "cheia"
    ensures g == LastQuarterGlyph <==> Strings.ToLower(phase) == "minguante"
    ensures g == "" <==> Strings.ToLower(phase) !in {"nova", "crescente", "cheia", "minguante"}
  {
    match Strings.ToLower(phase)
    case "nova" => NewMoonGlyph
    case "crescente" => FirstQuarterGlyph
    case "cheia" => FullMoonGlyph
    case "minguante" => LastQuarterGlyph
    case _ => ""
  }

  /** Names that differ only in letter case get the same glyph. */
  lemma {:induction false} GlyphIgnoresCase(a: string, b: string)
    requires Strings.ToLower(a) == Strings.ToLower(b)
    ensures Glyph(a) == Glyph(b)
  {
  }

  /** A name and its lower-case form get the same glyph. */
  lemma GlyphOfLowered(phase: string)
    ensures Glyph(Strings.ToLower(phase)) == Glyph(phase)
  {
    Strings.ToLowerIdempotent(phase);
  }

  /** "Cheia", "CHEIA" and "cheia" all show the full moon. */
  lemma CapitalisedFullMoon()
    ensures Glyph("Cheia") == FullMoonGlyph
    ensures Glyph("CHEIA") == FullMoonGlyph
    ensures Glyph("cheia") == FullMoonGlyph
  {
    assert Strings.ToLower("Cheia") == "cheia";
    assert Strings.ToLower("CHEIA") == "cheia";
    assert Strings.ToLower("cheia") == "cheia";
  }

  /** A name whose lower-case form is none of the four phases, such as "Quarto Crescente", has no glyph. */
  lemma UnknownPhaseHasNoGlyph(phase: string)
    requires Strings.ToLower(phase) !in {"nova", "crescente", "cheia", "minguante"}
    ensures Glyph(phase) == ""
  {
  }
}

=== FILE: Navigation.dfy ===
/**
 * `handlePrevMonth` and `handleNextMonth`, and the
 * initial month and date chosen when the dataset has loaded.
 */
module Navigation {

  import Calendar
  import MonthGrid

  /** The calendar's state: a year and a zero-based month. */
  datatype YearMonth = YearMonth(year: int, month: Calendar.Month0)

  /** First month with data: January 2025. */
  const DataStart: YearMonth := YearMonth(2025, 0)
  /** Last month with data: March 2026. */
  const DataEnd: YearMonth := YearMonth(2026, 2)

  /** Months counted from January of year 0, so that neighbouring months differ by one. */
  function Index(s: YearMonth): int {
    s.year * 12 + s.month
  }

  /** `s` lies in the closed window `[lo, hi]`. */
  predicate InWindow(s: YearMonth, lo: YearMonth, hi: YearMonth) {
    Index(lo) <= Index(s) <= Index(hi)
  }

  /** A month determines its index and back. */
  lemma IndexInjective(a: YearMonth, b: YearMonth)
    requires Index(a) == Index(b)
    ensures a == b
  {
  }

  /**
   * One month back (`handlePrevMonth` with first month `lo`): January rolls to
   * December of the year before, and a month before `lo` is replaced by `lo`.
   */
  function Prev(s: YearMonth, lo: YearMonth): (r: YearMonth)
    ensures Index(r) == if Index(s) - 1 < Index(lo) then Index(lo) else Index(s) - 1
  {
    var (y, m) := if s.month - 1 < 0 then (s.year - 1, 11) else (s.year, s.month - 1);
    if y < lo.year || (y == lo.year && m < lo.month) then lo else YearMonth(y, m)
  }

  /**
   * One month on (`handleNextMonth` with last month `hi`): December rolls to
   * January of the next year, and a month after `hi` is replaced by `hi`.
   */
  function Next(s: YearMonth, hi: YearMonth): (r: YearMonth)
    ensures Index(r) == if Index(s) + 1 > Index(hi) then Index(hi) else Index(s) + 1
  {
    var (y, m) := if s.month + 1 > 11 then (s.year + 1, 0) else (s.year, s.month + 1);
    if y > hi.year || (y == hi.year && m > hi.month) then hi else YearMonth(y, m)
  }

  /** The source's literal bounds: January 2025 and March 2026. */
  function PrevMonth(s: YearMonth): (r: YearMonth)
    ensures Index(r) == if Index(s) - 1 < Index(DataStart) then Index(DataStart) else Index(s) - 1
  {
    Prev(s, DataStart)
  }

  function NextMonth(s: YearMonth): (r: YearMonth)
    ensures Index(r) == if Index(s) + 1 > Index(DataEnd) then Index(DataEnd) else Index(s) + 1
  {
    Next(s, DataEnd)
  }

  /** The year boundary: January goes back to December, December on to January. */
  lemma {:induction false} RollOver(y: int)
    ensures y > 2025 ==> PrevMonth(YearMonth(y, 0)) == YearMonth(y - 1, 11)
    ensures y < 2026 ==> NextMonth(YearMonth(y, 11)) == YearMonth(y + 1, 0)
  {
    if y > 2025 { IndexInjective(PrevMonth(YearMonth(y, 0)), YearMonth(y - 1, 11)); }
    if y < 2026 { IndexInjective(NextMonth(YearMonth(y, 11)), YearMonth(y + 1, 0)); }
  }

  /** Anything before 2025 goes back to January 2025; anything after March 2026 on to March 2026. */
  lemma {:induction false} ClampsToDataWindow(s: YearMonth)
    ensures s.year < 2025 ==> PrevMonth(s) == DataStart
    ensures Index(s) >= Index(DataEnd) ==> NextMonth(s) == DataEnd
  {
    if s.year < 2025 { IndexInjective(PrevMonth(s), DataStart); }
    if Index(s) >= Index(DataEnd) { IndexInjective(NextMonth(s), DataEnd); }
  }

  /** Both steps keep a state inside the window inside it. */
  lemma {:induction false} StepsStayInWindow(s: YearMonth, lo: YearMonth, hi: YearMonth)
    requires Index(lo) <= Index(hi)
    requires InWindow(s, lo, hi)
    ensures InWindow(Prev(s, lo), lo, hi) && InWindow(Next(s, hi), lo, hi)
  {
  }

  /** The window's ends are fixed points: back from the first month, on from the last. */
  lemma {:induction false} EndsAreFixedPoints(lo: YearMonth, hi: YearMonth)
    ensures Prev(lo, lo) == lo && Next(hi, hi) == hi
  {
    IndexInjective(Prev(lo, lo), lo);
    IndexInjective(Next(hi, hi), hi);
  }

  /** Inside the window, one step on undoes one step back unless the step back was clamped, and vice versa. */
  lemma {:induction false} StepsUndoEachOther(s: YearMonth, lo: YearMonth, hi: YearMonth)
    requires InWindow(s, lo, hi)
    ensures s != lo ==> Next(Prev(s, lo), hi) == s
    ensures s != hi ==> Prev(Next(s, hi), lo) == s
  {
    if s != lo {
      assert Index(s) != Index(lo) by { if Index(s) == Index(lo) { IndexInjective(s, lo); } }
      IndexInjective(Next(Prev(s, lo), hi), s);
    }
    if s != hi {
      assert Index(s) != Index(hi) by { if Index(s) == Index(hi) { IndexInjective(s, hi); } }
      IndexInjective(Prev(Next(s, hi), lo), s);
    }
  }

  /** One step back or on, as the two arrow buttons. */
  datatype Step = Back | On

  /** The state after pressing the buttons in `steps`, in order. */
  function Walk(s: YearMonth, steps: seq<Step>): YearMonth
    decreases |steps|
  {
    if steps == [] then s
    else Walk(if steps[0] == Back then PrevMonth(s) else NextMonth(s), steps[1..])
  }

  /** From a state inside the data window no sequence of clicks leaves it. */
  lemma {:induction false} WalkStaysInWindow(s: YearMonth, steps: seq<Step>)
    requires InWindow(s, DataStart, DataEnd)
    ensures InWindow(Walk(s, steps), DataStart, DataEnd)
    decreases |steps|
  {
    if steps != [] {
      StepsStayInWindow(s, DataStart, DataEnd);
      WalkStaysInWindow(if steps[0] == Back then PrevMonth(s) else NextMonth(s), steps[1..]);
    }
  }

  // ---------------------------------------------------------------------------
  // Initial state
  // ---------------------------------------------------------------------------

  /** The source's test for "today is outside the data": before 2025, or 2026 after March. */
  predicate SnapsToStart(now: YearMonth) {
    now.year < 2025 || (now.year == 2026 && now.month > 2)
  }

  /** The month shown first, as written: January 2025 when `SnapsToStart`, else the current month. */
  function InitialMonth(now: YearMonth): (r: YearMonth)
    ensures SnapsToStart(now) ==> r == DataStart
    ensures !SnapsToStart(now) ==> r == now
  {
    if SnapsToStart(now) then DataStart else now
  }

  /**
   * The date selected first: "2025-01-01" under the same test, else today's date
   * (`todayIso`, the date part of `toISOString()`, which the caller supplies).
   */
  function InitialSelectedDate(now: YearMonth, todayIso: string): (r: string)
    ensures SnapsToStart(now) ==> r == "2025-01-01"
    ensures !SnapsToStart(now) ==> r == todayIso
  {
    if SnapsToStart(now) then "2025-01-01" else todayIso
  }

  /**
   * As written, a current month from 2027 on is kept although it lies after the data
   * window, and a step back from January 2027 still lands outside the window.
   */
  lemma {:induction false} InitialMonthKeepsLaterYears(m: Calendar.Month0)
    ensures InitialMonth(YearMonth(2027, m)) == YearMonth(2027, m)
    ensures !InWindow(InitialMonth(YearMonth(2027, m)), DataStart, DataEnd)
    ensures !InWindow(PrevMonth(InitialMonth(YearMonth(2027, 0))), DataStart, DataEnd)
  {
  }

  /** As written, the date selected first from 2027 on is today's, which has no data either. */
  lemma {:induction false} InitialSelectedDateKeepsLaterYears(m: Calendar.Month0, todayIso: string)
    ensures InitialSelectedDate(YearMonth(2027, m), todayIso) == todayIso
  {
  }

  /** The start test is exactly "not inside the window" for the years 2025 and 2026 and for every year before. */
  lemma {:induction false} SnapTestMissesOnlyLaterYears(now: YearMonth)
    requires now.year <= 2026
    ensures SnapsToStart(now) <==> !InWindow(now, DataStart, DataEnd)
  {
  }

  /** The evidently intended choice: any month outside the data window starts at January 2025. */
  function InitialMonthClamped(now: YearMonth): (r: YearMonth)
    ensures InWindow(r, DataStart, DataEnd)
    ensures InWindow(now, DataStart, DataEnd) ==> r == now
    ensures !InWindow(now, DataStart, DataEnd) ==> r == DataStart
  {
    if InWindow(now, DataStart, DataEnd) then now else DataStart
  }

  /**
   * The evidently intended first selected date: today's date inside the data window,
   * else the key of day 1 of the intended first month.
   */
  function InitialSelectedDateClamped(now: YearMonth, todayIso: string): (r: string)
    ensures InWindow(now, DataStart, DataEnd) ==> r == todayIso
    ensures !InWindow(now, DataStart, DataEnd) ==>
              r == MonthGrid.DateKey(InitialMonthClamped(now).year, InitialMonthClamped(now).month, 1)
  {
    if InWindow(now, DataStart, DataEnd) then todayIso else StartDateKey()
  }

  /** The literal "2025-01-01" of the source is the store key of day 1 of `DataStart`. */
  function StartDateKey(): (k: string)
    ensures k == MonthGrid.DateKey(DataStart.year, DataStart.month, 1)
  {
    StartDateIsKeyOfDataStart();
    "2025-01-01"
  }

  lemma StartDateIsKeyOfDataStart()
    ensures "2025-01-01" == MonthGrid.DateKey(DataStart.year, DataStart.month, 1)
  {
  }

  /** The intended choice agrees with the source for every year up to 2026. */
  lemma {:induction false} ClampedAgreesUpTo2026(now: YearMonth, todayIso: string)
    requires now.year <= 2026
    ensures InitialMonthClamped(now) == InitialMonth(now)
    ensures InitialSelectedDateClamped(now, todayIso) == InitialSelectedDate(now, todayIso)
  {
    SnapTestMissesOnlyLaterYears(now);
  }

  /** With the intended start, every state the buttons can reach lies in the data window. */
  lemma {:induction false} ReachableStatesInWindow(now: YearMonth, steps: seq<Step>)
    ensures InWindow(Walk(InitialMonthClamped(now), steps), DataStart, DataEnd)
  {
    WalkStaysInWindow(InitialMonthClamped(now), steps);
  }
}

=== FILE: Push.dfy ===
/**
 * `urlBase64ToUint8Array`: turns a base64url string (section 5 of RFC 4648,
 * padding usually dropped) into the octets of the push server key.
 */
module Push {

  import opened Wrappers
  import Strings
  import Base64

  /** `(4 - n % 4) % 4`: the fewest "=" that bring a length of `n` to a multiple of four. */
  function PaddingLength(n: nat): (k: nat)
    ensures k <= 3
    ensures (n + k) % 4 == 0
    ensures k == 0 <==> n % 4 == 0
  {
    (4 - n % 4) % 4
  }

  /** `s + '='.repeat(PaddingLength(|s|))`: the input, then the padding section 3.2 asks for. */
  function RestorePadding(s: string): (r: string)
    ensures |r| % 4 == 0 && |r| == |s| + PaddingLength(|s|)
    ensures r[..|s|] == s
    ensures forall i :: |s| <= i < |r| ==> r[i] == '='
  {
    s + Strings.Repeat('=', PaddingLength(|s|))
  }

  /**
   * `.replace(/\-/g, '+').replace(/_/g, '/')`: the two characters where the URL-safe
   * alphabet differs are mapped to the standard ones; every other character stays.
   */
  function ToStandardAlphabet(s: string): (r: string)
    ensures |r| == |s|
    ensures forall i :: 0 <= i < |s| ==> r[i] == (if s[i] == '-' then '+' else if s[i] == '_' then '/' else s[i])
    ensures forall i :: 0 <= i < |r| ==> r[i] != '-' && r[i] != '_'
  {
    Strings.ReplaceAll(Strings.ReplaceAll(s, '-', '+'), '_', '/')
  }

  /** The string handed to `atob`: padded first, then translated. */
  function Normalize(s: string): (r: string)
    ensures |r| % 4 == 0 && |r| == |s| + PaddingLength(|s|)
  {
    ToStandardAlphabet(RestorePadding(s))
  }

  /** `rawData.charCodeAt(i)` stored into a `Uint8Array`, for every `i` in order. */
  function CharCodes(raw: Base64.BinaryString): (out: seq<Base64.Byte>)
    ensures |out| == |raw|
    ensures forall i :: 0 <= i < |raw| ==> out[i] == raw[i] as int
  {
    seq(|raw|, i requires 0 <= i < |raw| => raw[i] as int)
  }

  /**
   * The key's octets. `atob` is a parameter (the browser's decoder); where it throws,
   * so does the source, which is `None` here.
   */
  function UrlBase64ToBytes(s: string, atob: string -> Option<Base64.BinaryString>): (r: Option<seq<Base64.Byte>>)
    ensures r.None? <==> atob(Normalize(s)).None?
    ensures r.Some? ==>
              && |r.value| == |atob(Normalize(s)).value|
              && forall i :: 0 <= i < |r.value| ==> r.value[i] == atob(Normalize(s)).value[i] as int
  {
    match atob(Normalize(s))
    case None => None
    case Some(raw) => Some(CharCodes(raw))
  }

  /** The URL-safe alphabet of section 5: "+" written "-", "/" written "_". */
  function ToUrlAlphabet(s: string): (r: string)
    ensures |r| == |s|
    ensures forall i :: 0 <= i < |s| ==> r[i] == (if s[i] == '+' then '-' else if s[i] == '/' then '_' else s[i])
  {
    Strings.ReplaceAll(Strings.ReplaceAll(s, '+', '-'), '/', '_')
  }

  /** The base64url form of octets with the padding left off, as push server keys are published. */
  function UrlEncodeUnpadded(bs: seq<Base64.Byte>): string {
    ToUrlAlphabet(Base64.EncodeUnpadded(bs))
  }

  /** Padding and translating the URL-safe form gives the standard encoding back. */
  lemma {:induction false} NormalizeUndoesUrlEncoding(bs: seq<Base64.Byte>)
    ensures Normalize(UrlEncodeUnpadded(bs)) == Base64.Encode(bs)
  {
    var e := Base64.EncodeUnpadded(bs);
    var u := UrlEncodeUnpadded(bs);
    var p := PaddingLength(|u|);
    assert p == Base64.PadCount(|bs|);
    var std := Base64.Encode(bs);
    var r := Normalize(u);
    assert |r| == |std|;
    forall i | 0 <= i < |r| ensures r[i] == std[i] {
      if i < |e| {
        assert RestorePadding(u)[i] == u[i];
        assert std[i] == e[i];
      } else {
        assert RestorePadding(u)[i] == '=';
        assert std[i] == Strings.Repeat('=', Base64.PadCount(|bs|))[i - |e|];
      }
    }
  }

  /** A key published unpadded in the URL-safe alphabet decodes to its octets, with `Base64.Atob` as `atob`. */
  lemma {:induction false} UrlBase64RoundTrip(bs: seq<Base64.Byte>)
    ensures UrlBase64ToBytes(UrlEncodeUnpadded(bs), Base64.Atob) == Some(bs)
  {
    var n := Normalize(UrlEncodeUnpadded(bs));
    NormalizeUndoesUrlEncoding(bs);
    Base64.DecodeEncode(bs);
    var raw := Base64.BytesToBinaryString(bs);
    assert Base64.Atob(n) == Some(raw);
    assert CharCodes(raw) == bs;
  }

  /** A length one more than a multiple of four gets "===", which `Base64.Atob` rejects, so the call fails. */
  lemma {:induction false} OneCharTailIsRejected(s: string)
    requires |s| % 4 == 1
    ensures UrlBase64ToBytes(s, Base64.Atob).None?
  {
    var n := Normalize(s);
    assert PaddingLength(|s|) == 3;
    assert RestorePadding(s)[|n| - 3] == '=';
    assert n[|n| - 3] == '=';
    Base64.DecodeRejectsEarlyPadding(n);
  }
}

=== FILE: Strings.dfy ===
/** String helpers with the meaning of the JavaScript built-ins the source uses. */
module Strings {

  import opened Wrappers

  /** `xs.join(sep)`: the elements of `xs`, in order, with `sep` between neighbours. */
  function Join(xs: seq<string>, sep: string): string
    decreases |xs|
  {
    if |xs| == 0 then ""
    else if |xs| == 1 then xs[0]
    else xs[0] + sep + Join(xs[1..], sep)
  }

  /** Where element `i` of `xs` starts inside `Join(xs, sep)`. */
  function JoinOffset(xs: seq<string>, sep: string, i: nat): nat
    requires i < |xs|
    decreases i
  {
    if i == 0 then 0 else |xs[0]| + |sep| + JoinOffset(xs[1..], sep, i - 1)
  }

  /** A slice past the front part of a concatenation is a slice of the back part. */
  lemma SliceAfterPrefix(a: string, b: string, lo: nat, hi: nat)
    requires lo <= hi <= |b|
    ensures (a + b)[|a| + lo .. |a| + hi] == b[lo..hi]
  {
  }

  /** The first element and the separator after it open the joined string. */
  lemma JoinPlacesFirst(xs: seq<string>, sep: string)
    requires 1 < |xs|
    ensures Join(xs, sep) == xs[0] + sep + Join(xs[1..], sep)
    ensures Join(xs, sep)[..|xs[0]|] == xs[0]
    ensures Join(xs, sep)[|xs[0]| .. |xs[0]| + |sep|] == sep
  {
    var j := Join(xs, sep);
    assert j == xs[0] + (sep + Join(xs[1..], sep));
    SliceAfterPrefix(xs[0], sep + Join(xs[1..], sep), 0, |sep|);
  }

  /** Every element sits whole at its offset; the last one ends the joined string. */
  lemma {:induction false} JoinPlacesElements(xs: seq<string>, sep: string, i: nat)
    requires i < |xs|
    ensures JoinOffset(xs, sep, i) + |xs[i]| <= |Join(xs, sep)|
    ensures Join(xs, sep)[JoinOffset(xs, sep, i) .. JoinOffset(xs, sep, i) + |xs[i]|] == xs[i]
    ensures i + 1 == |xs| ==> JoinOffset(xs, sep, i) + |xs[i]| == |Join(xs, sep)|
    decreases i
  {
    if |xs| == 1 {
    } else if i == 0 {
      JoinPlacesFirst(xs, sep);
    } else {
      JoinPlacesFirst(xs, sep);
      JoinPlacesElements(xs[1..], sep, i - 1);
      var head := xs[0] + sep;
      var rest := Join(xs[1..], sep);
      var o := JoinOffset(xs[1..], sep, i - 1);
      assert Join(xs, sep) == head + rest;
      assert xs[1..][i - 1] == xs[i];
      SliceAfterPrefix(head, rest, o, o + |xs[i]|);
    }
  }

  /** Between element `i` and element `i + 1` stands exactly one separator. */
  lemma {:induction false} JoinSeparates(xs: seq<string>, sep: string, i: nat)
    requires i + 1 < |xs|
    ensures JoinOffset(xs, sep, i + 1) == JoinOffset(xs, sep, i) + |xs[i]| + |sep|
    ensures JoinOffset(xs, sep, i) + |xs[i]| + |sep| <= |Join(xs, sep)|
    ensures Join(xs, sep)[JoinOffset(xs, sep, i) + |xs[i]| .. JoinOffset(xs, sep, i) + |xs[i]| + |sep|] == sep
    decreases i
  {
    JoinPlacesFirst(xs, sep);
    if i > 0 {
      JoinSeparates(xs[1..], sep, i - 1);
      var head := xs[0] + sep;
      var rest := Join(xs[1..], sep);
      var o := JoinOffset(xs[1..], sep, i - 1);
      assert Join(xs, sep) == head + rest;
      assert xs[1..][i - 1] == xs[i];
      SliceAfterPrefix(head, rest, o + |xs[i]|, o + |xs[i]| + |sep|);
    }
  }

  /** Joining non-empty pieces gives the empty string only when there are no pieces. */
  lemma {:induction false} JoinEmptyIff(xs: seq<string>, sep: string)
    requires forall i :: 0 <= i < |xs| ==> xs[i] != ""
    ensures Join(xs, sep) == "" <==> xs == []
  {
    if |xs| > 1 {
      assert |Join(xs, sep)| >= |xs[0]| > 0;
    }
  }

  /** Appending one more piece appends the separator and that piece. */
  lemma {:induction false} JoinSnoc(xs: seq<string>, s: string, sep: string)
    requires xs != []
    ensures Join(xs + [s], sep) == Join(xs, sep) + sep + s
    decreases |xs|
  {
    if |xs| == 1 {
      assert (xs + [s])[1..] == [s];
    } else {
      assert (xs + [s])[1..] == xs[1..] + [s];
      JoinSnoc(xs[1..], s, sep);
    }
  }

  /** `c.repeat(n)` for a one-character string `c`. */
  function Repeat(c: char, n: nat): (r: string)
    ensures |r| == n
    ensures forall i :: 0 <= i < n ==> r[i] == c
  {
    if n == 0 then "" else [c] + Repeat(c, n - 1)
  }

  /** Lower-case of one character; only the ASCII letters A-Z are folded. */
  function LowerChar(c: char): (r: char)
    ensures 'A' <= c <= 'Z' ==> r as int == c as int + 32
    ensures !('A' <= c <= 'Z') ==> r == c
  {
    if 'A' <= c <= 'Z' then (c as int + 32) as char else c
  }

  /** `s.toLowerCase()` restricted to ASCII case folding. */
  function ToLower(s: string): (r: string)
    ensures |r| == |s|
    ensures forall i :: 0 <= i < |s| ==> r[i] == LowerChar(s[i])
  {
    seq(|s|, i requires 0 <= i < |s| => LowerChar(s[i]))
  }

  /** Lower-casing twice is lower-casing once. */
  lemma ToLowerIdempotent(s: string)
    ensures ToLower(ToLower(s)) == ToLower(s)
  {
    forall i | 0 <= i < |s| ensures ToLower(ToLower(s))[i] == ToLower(s)[i] {
      assert !('A' <= LowerChar(s[i]) <= 'Z');
    }
  }

  predicate IsDigit(c: char) {
    '0' <= c <= '9'
  }

  predicate IsDigits(s: string) {
    forall i :: 0 <= i < |s| ==> IsDigit(s[i])
  }

  function DigitChar(d: nat): (c: char)
    requires d < 10
    ensures IsDigit(c)
  {
    ('0' as int + d) as char
  }

  function DigitValue(c: char): nat
    requires IsDigit(c)
  {
    c as int - '0' as int
  }

  /** Decimal digits of `n` without leading zeros (`n.toString()` for a non-negative integer). */
  function NatToString(n: nat): (r: string)
    ensures |r| >= 1 && IsDigits(r)
    ensures n < 10 <==> |r| == 1
    ensures r[0] == '0' ==> n == 0
    decreases n
  {
    if n < 10 then [DigitChar(n)] else NatToString(n / 10) + [DigitChar(n % 10)]
  }

  /** Value of a string of decimal digits. */
  function ParseNat(s: string): nat
    requires IsDigits(s)
    decreases |s|
  {
    if |s| == 0 then 0 else 10 * ParseNat(s[..|s| - 1]) + DigitValue(s[|s| - 1])
  }

  /** Reading back the digits of `n` gives `n`. */
  lemma {:induction false} ParseNatToString(n: nat)
    ensures ParseNat(NatToString(n)) == n
    decreases n
  {
    var s := NatToString(n);
    if n >= 10 {
      assert s[..|s| - 1] == NatToString(n / 10);
      ParseNatToString(n / 10);
    }
  }

  /** `n.toString()` for any integer: a minus sign before the digits when negative. */
  function IntToString(n: int): (r: string)
    ensures |r| >= 1
    ensures r[0] == '-' <==> n < 0
  {
    if n < 0 then "-" + NatToString(-n) else NatToString(n)
  }

  /** Value of an optionally signed decimal string; `None` when it is not one. */
  function ParseInt(s: string): Option<int>
  {
    if |s| > 1 && s[0] == '-' && IsDigits(s[1..]) then Some(-(ParseNat(s[1..]) as int))
    else if |s| > 0 && IsDigits(s) then Some(ParseNat(s))
    else None
  }

  /** Reading back the decimal form of `n` gives `n`. */
  lemma {:induction false} ParseIntToString(n: int)
    ensures ParseInt(IntToString(n)) == Some(n)
  {
    if n < 0 {
      assert IntToString(n)[1..] == NatToString(-n);
      ParseNatToString(-n);
    } else {
      ParseNatToString(n);
    }
  }

  /** `s.padStart(2, '0')`. */
  function PadStart2(s: string): (r: string)
    ensures |s| >= 2 ==> r == s
    ensures |s| < 2 ==> |r| == 2 && r[2 - |s|..] == s && forall i :: 0 <= i < 2 - |s| ==> r[i] == '0'
  {
    if |s| >= 2 then s else Repeat('0', 2 - |s|) + s
  }

  /** Every occurrence of `from` replaced by `to` (`s.replace(/from/g, to)` for one character). */
  function ReplaceAll(s: string, from: char, to: char): (r: string)
    ensures |r| == |s|
    ensures forall i :: 0 <= i < |s| ==> r[i] == (if s[i] == from then to else s[i])
  {
    seq(|s|, i requires 0 <= i < |s| => if s[i] == from then to else s[i])
  }
}

=== FILE: Wrappers.dfy ===
/** Option and Result, the two failure-carrying shapes the model needs. */
module Wrappers {

  /** A value that may be missing: an omitted JSON field, an unloaded store, a failed decode. */
  datatype Option<+T> = None | Some(value: T) {

    /** The wrapped value, or `default` when there is none. */
    function GetOr(default: T): T {
      match this
      case Some(v) => v
      case None => default
    }
  }

  /** Either a value or the error a JavaScript expression would have thrown. */
  datatype Result<+R, +E> = Success(value: R) | Failure(error: E)
}
